=== FILE: README.md ===
# usage_plotter log parsing and reporting, in Dafny

This project models the core of `usage_plotter`. That tool reads the Apache
access logs of the E3SM data archive and reports how often data was requested
and how much was transferred. The modelled core lives in
`usage_plotter/parse.py` and covers six parts.

- **Line filter.** It admits a raw line only when the line mentions `E3SM` and
  no asset, catalog or aggregation token.
- **Record parser.** It splits a line on whitespace and takes fields by
  position. It decodes `%2F` in the path and parses the `[dd/Mon/YYYY:...`
  timestamp with the `%d/%b/%Y` rules. It decides the project from the path
  and zeroes the size when the byte token holds a `-`.
- **Path parser and facet classifier.** The dataset id is the dot-join of the
  directories after `user_pub_work`, and the file id is the last path segment.
  Each of the six facet vocabularies is matched against the dataset id's
  segments, and the entry declared last among those present wins.
- **Run.** It parses every admitted line of every file in order. It fails on
  the first line that fails and when nothing was admitted.
- **Monthly report.** It counts the requests per (year, month[, facet]) over
  all statuses and sums the sizes over statuses containing `200` or `206`. An
  inner merge joins the two tables, and the result is sorted by key.
- **Fiscal resampling.** Calendar months map to the July–June fiscal year
  (pandas `Q-JUN`, named after the year it ends), to fiscal quarters and to
  fiscal months.

The modules follow the pipeline:
- `Text`, `Segments` and `Replacing` model the Python string operations the
  parser relies on: `in`, `find`, `index`, slicing, `split`, `join` and
  `replace`.
- `Dates` models `strptime("%d/%b/%Y")`.
- `Facets` models the vocabularies and the classifier.
- `LogLines` models the filter, the record and path parsers, and the run.
- `Ordering` and `Reports` model the monthly report.
- `Fiscal` models the quarter mapping, `resample_to_quarter` and `gen_report`.

In a few places the code behaves differently from what its names suggest;
the model follows the code:

- **Missing marker.** When `user_pub_work` is absent, `path.index` raises and
  the slice start becomes `None`. The dataset id is then the dot-join of all
  the `/`-segments before the file name. It is empty when the path has no
  directory (`x.nc`) or only the root (`/x.nc`); `/a/x.nc` gives `.a`
  (`LogLines.PathWithoutMarker`).
- **One quarter row per month.** The quarterly grouping keys include the
  calendar year and month. Each monthly row therefore becomes exactly one
  quarter row, and no sums are taken across the months of a quarter
  (`Fiscal.ResampleToQuarter`).
- **Substring tests.** The size is zeroed when `-` occurs anywhere in the byte
  token. A status counts as a success when it contains `200` or `206`
  anywhere.
- **Quarter rows carry no dates.** They carry the calendar year, calendar
  month, fiscal year, fiscal quarter and fiscal month. There are no quarter
  start or end dates.

## Model

| member | source | states |
|---|---|---|
| LogLines.DownloadRequestIff | usage_plotter/parse.py:117-125 | a line is admitted exactly when `E3SM` occurs in it at some position and none of the six excluded tokens occurs at any position |
| LogLines.AdmittedLines | usage_plotter/parse.py:115-126 | each admitted line is yielded as often as the file holds it and no other line ever; nothing is dropped when every line is admitted |
| LogLines.AdmittedLinesAppend | usage_plotter/parse.py:118-126 | filtering keeps file order: the lines yielded from two consecutive stretches are those of the first, then those of the second |
| LogLines.AdmittedFromFiles | usage_plotter/parse.py:71-72 | the lines fed to the parser are the admitted lines of all the files' lines read file after file, each as often as it occurs; a line is fed exactly when it is admitted and some file holds it |
| LogLines.ParseLogLine | usage_plotter/parse.py:129-163 | a missing field fails exactly when the line has fewer than 12 whitespace fields; parsing succeeds exactly when it has 12 and field 3 holds a valid timestamp; requester, status, bytes and access type are fields 0, 8, 9, 11; the path is field 6 with `%2F` decoded and holds no `%2F`; the project is CMIP6 exactly when the path contains `/E3SM-Project`; the size is 0 when the byte token contains `-` and the converted size otherwise; dataset id, file id and facets are those of the path |
| LogLines.ParsedFieldsAreSubstrings | usage_plotter/parse.py:137-151 | requester, status and byte count of a parsed line are literal substrings of the line |
| LogLines.ParseLineFromFields | usage_plotter/parse.py:137-151 | a line assembled from 12 or more whitespace-free fields, followed by any whitespace line end such as `\n`, parses exactly when its fourth field is a valid timestamp, and gives back requester, status, bytes, access type, decoded path and date from those fields |
| LogLines.ShortLineFromFields | usage_plotter/parse.py:137-147 | a line of fewer than 12 whitespace-free fields, with any whitespace line end, fails with a missing field |
| Segments.Fields | usage_plotter/parse.py:137 | whitespace splitting yields non-empty fields without whitespace |
| Segments.FieldsIgnoreTrailingSpace | usage_plotter/parse.py:137 | trailing whitespace, such as the `\n` kept by `readline`, adds no field and changes none |
| Segments.FieldsOfSpaces | usage_plotter/parse.py:137 | a text of whitespace only has no fields |
| Segments.FieldsIgnoreLeadingSpace | usage_plotter/parse.py:137 | leading whitespace adds no field and changes none |
| Segments.FieldsOfJoinSpaces | usage_plotter/parse.py:137 | splitting non-empty whitespace-free fields joined by any non-empty run of whitespace gives the fields back |
| Segments.FieldsOfJoin | usage_plotter/parse.py:137 | splitting a single-space-joined list of non-empty whitespace-free fields gives the list back |
| Segments.FieldsAreSubstrings | usage_plotter/parse.py:137 | every whitespace field is a substring of the line |
| Replacing.ReplaceIdentityIff | usage_plotter/parse.py:138 | with a shorter replacement, `replace` leaves a text unchanged exactly when the pattern does not occur in it |
| Replacing.ReplaceShrinks | usage_plotter/parse.py:138 | a shorter replacement never lengthens the text, and shortens it when the pattern occurs |
| Replacing.DecodedHasNoEncodedSlash | usage_plotter/parse.py:138 | after decoding, no `%2F` is left in the path |
| Replacing.DecodeIdempotent | usage_plotter/parse.py:138 | decoding an already decoded path changes nothing |
| Replacing.ReplaceAbsent | usage_plotter/parse.py:138 | `replace` returns a text without the pattern unchanged |
| Replacing.DecodeJoin | usage_plotter/parse.py:138 | decoding parts joined on `%2F`, none of which holds `%2F`, gives the parts joined on `/` |
| LogLines.TimestampText | usage_plotter/parse.py:177 | for every combination of the two positions: the text read as a date is what lies between the first `[` and the first `:`; without `[` it starts at the beginning; without `:` it stops one character short of the end; it is empty when `:` comes before `[`, when `[` is the last character and there is no `:`, and for an empty token |
| LogLines.ParseLogTimestamp | usage_plotter/parse.py:166-183 | a parse succeeds with date `d` exactly when `d` is valid and the timestamp text spells it as `%d/%b/%Y`; every failure is a timestamp error |
| LogLines.TimestampRoundTrip | usage_plotter/parse.py:177-181 | for every valid date, the token `[dd/Mon/YYYY:<anything>` yields exactly that date |
| LogLines.TimestampWithoutColon | usage_plotter/parse.py:177 | with no `:` the slice stops one character short, so `[dd/Mon/YYYY]` still yields its date |
| Text.Find | usage_plotter/parse.py:177 | `find` is -1 exactly when the text does not contain the pattern, and otherwise the lowest position where the pattern occurs |
| Text.ContainsIff | usage_plotter/parse.py:117-125 | Python's `in` on strings holds exactly when the pattern occurs at some position |
| Text.IndexOf | usage_plotter/parse.py:195 | `index` gives the first occurrence, and fails exactly when there is none |
| Text.Slice | usage_plotter/parse.py:177 | in-range bounds give the plain subsequence, a stop of -1 drops the last character, and a start past the end or a non-negative stop not after the start gives the empty string |
| Dates.ParseDay | usage_plotter/parse.py:179 | `%d` reads a token as day `n` exactly when the token spells `n`: one digit 1–9, or it with a leading `0` or space, or two digits 10–31 |
| Dates.ParseMonth | usage_plotter/parse.py:179 | `%b` reads a token as month `m` exactly when it is `m`'s English abbreviation in any letter case |
| Dates.ParseYear | usage_plotter/parse.py:179 | `%Y` reads a token as year `y` exactly when it is `y` written with four digits, zero-padded |
| Dates.Pad4OfDigits | usage_plotter/parse.py:179 | four digits read as a year and written back zero-padded give the same four digits |
| Dates.ParseDate | usage_plotter/parse.py:179 | a text parses to date `d` exactly when `d` is valid (year 1..9999, day within its month) and the text's three `/`-separated parts spell its day, month and year; the format error occurs exactly when the text spells no date, valid or not |
| Dates.ParseFormatRoundTrip | usage_plotter/parse.py:179 | formatting any valid date as `dd/Mon/YYYY` and parsing it gives the date back |
| Dates.LeapDayParsesIffLeapYear | usage_plotter/parse.py:179 | `29/Feb/YYYY` is accepted exactly in Gregorian leap years |
| Dates.DaysInMonth | usage_plotter/parse.py:179 | every month has 28 to 31 days, and 29 exactly for February of a leap year |
| LogLines.FileId | usage_plotter/parse.py:201 | the file id is a slash-free suffix of the path preceded by `/` or equal to the whole path |
| LogLines.DatasetStart | usage_plotter/parse.py:194-198 | the dataset part starts at 0 without the marker, and otherwise one character past the end of the first `user_pub_work`, whatever that character is |
| LogLines.DatasetId | usage_plotter/parse.py:194-200 | the dataset id holds no `/`, and is empty when the path ends with its first marker; every other path is covered by `PathWithMarker` and `PathWithoutMarker` |
| LogLines.MarkerSkipsAnyCharacter | usage_plotter/parse.py:195-200 | the character after the marker is dropped even when it is not `/`: `/d/user_pub_workX/E3SM/a/f.nc` has the dataset id `.E3SM.a` |
| LogLines.ParseLogPath | usage_plotter/parse.py:186-211 | the dataset id and file id are those derived from the path (characterised by `PathWithMarker` and `PathWithoutMarker`); they hold no `/`; the file id is the path's last segment; each facet is the last-matching vocabulary entry among the dataset id's `.` segments |
| LogLines.PathWithMarker | usage_plotter/parse.py:194-201 | for `<prefix>user_pub_work<c><d1>/…/<dn>/<file>`, with any character `c`, the dataset id is `<d1>.….<dn>`; when `c` is `/` the file id is `<file>` |
| LogLines.PathWithoutMarker | usage_plotter/parse.py:194-201 | without the marker, the dataset id joins every directory of the path and the file id is the last segment |
| Segments.Split | usage_plotter/parse.py:200 | splitting gives at least one part, and no part holds the separator |
| Segments.JoinSplit | usage_plotter/parse.py:200 | joining the `/`-split parts with `/` gives the text back |
| Segments.JoinAvoids | usage_plotter/parse.py:200 | a character in neither the parts nor the separator is not in their join |
| Segments.SplitJoin | usage_plotter/parse.py:200 | splitting a `/`-join of separator-free parts gives the parts back |
| Segments.LastSegmentOfSuffix | usage_plotter/parse.py:201 | the last `/`-segment of `u + t` is the last segment of `t` whenever `t` contains a separator |
| Facets.VocabulariesAreDuplicateFree | usage_plotter/parse.py:37-59 | no facet vocabulary lists a value twice |
| Facets.LastMatch | usage_plotter/parse.py:205-208 | no match exactly when no option is a segment; a match is an option that is a segment, and no later option is one |
| Facets.MatchFacet | usage_plotter/parse.py:204-209 | the overwrite-on-every-hit loop computes the last option in declaration order that is a segment |
| Facets.Classify | usage_plotter/parse.py:203-209 | each facet's value is the last-matching entry of its vocabulary among the dataset id's `.` segments |
| Facets.ClassifySound | usage_plotter/parse.py:203-209 | a classified value is in its vocabulary and is a segment; a facet is absent exactly when none of its vocabulary is a segment |
| Facets.LaterVocabularyEntryWins | usage_plotter/parse.py:206-208 | when two entries of a vocabulary are both segments, the earlier-declared one is never the result |
| Facets.ClassifySegmentOrderIrrelevant | usage_plotter/parse.py:203-209 | dataset ids with the same set of segments classify identically |
| LogLines.ParseAll | usage_plotter/parse.py:71-74 | on success every line's parse is at its position; on failure the error is that of a failing line before which every line parses |
| LogLines.ParseLogs | usage_plotter/parse.py:62-79 | a successful run is non-empty and holds the parse of every admitted line in order; any other failure is that of the first admitted line that fails to parse; the empty-result error occurs exactly when no line was admitted |
| Ordering.StrLessTotal | usage_plotter/parse.py:244 | Python's string order is total on distinct strings |
| Ordering.StrLessTransitive | usage_plotter/parse.py:244 | Python's string order is transitive |
| Reports.KeyLessTotal | usage_plotter/parse.py:244 | the report's key order (year, month, facet with absent last) is total on distinct keys |
| Reports.KeyLessTransitive | usage_plotter/parse.py:244 | the report's key order is transitive |
| Reports.SortedKeys | usage_plotter/parse.py:231-244 | the keys come out strictly sorted, and a key is listed exactly when some request falls under it |
| Reports.SuccessIff | usage_plotter/parse.py:236 | a status is a success exactly when `200` or `206` occurs in it at some position |
| Reports.KeyOfParsed | usage_plotter/parse.py:225-231 | a parsed request falls under the year and month of its timestamp field and, with a facet, under the classifier's value for the dataset id of its decoded path |
| Reports.Successful | usage_plotter/parse.py:236 | a request is kept only if its status contains `200` or `206`, and every such request is kept; when all succeed, all are kept in order |
| Reports.SuccessfulCounts | usage_plotter/parse.py:236 | each successful request is kept as often as it occurs, every other request never |
| Reports.SuccessfulAppend | usage_plotter/parse.py:236 | selecting successes keeps order: two consecutive stretches give their selections one after the other |
| Reports.Considered | usage_plotter/parse.py:225-231 | without a facet, or when absent values are kept, the requests are unchanged; otherwise exactly the requests with a facet value take part |
| Reports.ConsideredCounts | usage_plotter/parse.py:225-231 | each request that takes part is kept as often as it occurs, every other request never |
| Reports.ConsideredAppend | usage_plotter/parse.py:225-231 | selecting the requests that take part keeps their order |
| Reports.RequestCountIsMultiplicity | usage_plotter/parse.py:231-233 | a key's request count is its multiplicity among the keys of all requests |
| Reports.SizeSumBounds | usage_plotter/parse.py:236-238 | the size `SizeSum` sums under a key (the grouped `.sum()` of sizes) is at most the size of all successful requests; it is all of it when every request falls under the key, and 0 when none does |
| Reports.MonthlyReport | usage_plotter/parse.py:225-244 | rows are strictly sorted by key; a key has a row exactly when a successful request falls under it (inner merge); a row counts every request under its key, at least one, and sums the sizes of the successful ones |
| Reports.FailedRequestCountsButAddsNoSize | usage_plotter/parse.py:231-238 | adding a request with a non-success status raises its key's count by one and leaves every size sum unchanged |
| Reports.MonthlyTotals | usage_plotter/parse.py:229-244 | the report's requests total the requests taking part in the grouping (`Considered`) whose key has a success, and its sizes total the sizes of the successful requests taking part in the grouping |
| Reports.NoRequestLostWhenEveryGroupSucceeds | usage_plotter/parse.py:243 | when every request's key is in the report, the report counts every request |
| Fiscal.ConvertToFiscalMonth | usage_plotter/parse.py:296-319 | defined exactly on 1..12; July..December become 1..6, January..June become 7..12 |
| Fiscal.FiscalMonthSurjective | usage_plotter/parse.py:305-318 | every fiscal month is reached by a calendar month |
| Fiscal.QuarterOf | usage_plotter/parse.py:262-266 | every fiscal quarter is between 1 and 4 |
| Fiscal.QuarterRule | usage_plotter/parse.py:262-266 | under `Q-JUN`, months 7–12 are in the fiscal year of the next calendar year and months 1–6 in that of the current one; the quarter is the fiscal month divided by three, rounded up |
| Fiscal.FiscalYearBoundary | usage_plotter/parse.py:262-266 | June 2020 is FY2020 Q4 and July 2020 is FY2021 Q1 |
| Fiscal.QuarterIsThreeConsecutiveMonths | usage_plotter/parse.py:262-266 | a month is in a fiscal quarter exactly when it is one of the quarter's three consecutive months |
| Fiscal.QuarterMonotone | usage_plotter/parse.py:262-266 | a later calendar month never lies in an earlier fiscal quarter |
| Fiscal.QuarterRowOf | usage_plotter/parse.py:262-283 | a quarter row keeps the month's key, counts and sizes; its fiscal month maps back to the calendar month; its fiscal year and quarter follow the `Q-JUN` rule |
| Fiscal.ResampleToQuarter | usage_plotter/parse.py:251-293 | one quarter row per monthly row, in the same order |
| Fiscal.ResamplePreservesTotals | usage_plotter/parse.py:279-283 | resampling keeps the total requests and the total size |
| Fiscal.FiscalYearTotals | usage_plotter/parse.py:262-283 | a fiscal year's requests in the quarterly report equal the sum of the monthly requests of its months |
| Fiscal.ResampleIsFiscallyOrdered | usage_plotter/parse.py:244-283 | a key-sorted monthly report yields quarter rows in ascending fiscal year and quarter |
| Fiscal.GenReport | usage_plotter/parse.py:214-248 | the quarterly report has one row per monthly row; its sizes total those of the successful requests taking part in the grouping (`Considered`), and its requests total the requests taking part whose key has a success |
| Fiscal.GenReportOfPair | usage_plotter/parse.py:214-248 | the quarterly report of a successful and a failed request under one key is one quarter row holding two requests and the first request's size |
| Fiscal.SuccessAndFailureInOneMonth | usage_plotter/parse.py:229-244 | a successful and a failed request under one key give one row with two requests and the first request's size |
| Fiscal.ParsedJuly2019 | usage_plotter/parse.py:129-211 | an access-log line whose timestamp field is a July 2019 date and whose path is `<prefix>user_pub_work/<dirs>/<file>` with `atmos` but neither `land` nor `sea-ice` among the directories parses, under the key July 2019, realm `atmos` |
| Fiscal.EndToEndJuly2019 | usage_plotter/parse.py:129-248 | two such log lines for one path, a status-200 line and a status-404 line with byte token `-`, both parse, and the realm report of their records is one row: FY2020 Q1, fiscal month 1, two requests, the first line's size |

## Left out

- Reading the log directory (`get_logs`, `os.walk`), opening files and the
  `tqdm` progress bar are I/O. A run takes the files' lines as a sequence of
  sequences of lines.
- The pandas DataFrame itself and the `calendar_yr_month` period column are
  left out. Rows are datatypes, and the year and month are taken from the
  parsed date.
- `bytes_to` (in `usage_plotter/utils.py`) is not part of this model. It is
  the parameter `sizeOf` of the record parser, a total function, so a byte
  token it would reject is not modelled as an error.
- The `gb` column (`mb / 1024`, a float) is left out. Sizes stay in the whole
  units `sizeOf` gives and are summed exactly.
- Whether pandas' `value_counts` and `groupby` drop rows whose facet is `None`
  is left open. It is the parameter `keepAbsent` of the report.
- The behaviour of `groupby` with `None` among its keys, when no facet is
  requested, is left out. The quarterly rows are modelled as the per-row
  mapping the keys imply.
- `strptime` details beyond ASCII are left out. `\d` is taken to match ASCII
  digits only, month names are matched case-insensitively over ASCII letters
  only, and the C locale is assumed.
- The string formatting of the fiscal year and quarter (`%F`, `%q`) is left
  out. They are integers, with the fiscal year named after the calendar year
  in which it ends.
- `Q-JUN` periods are modelled only through their year and quarter. Start and
  end dates of quarters are not produced, because the code does not produce
  them.
- The kind of exception is not modelled. `IndexError` from a short line,
  `ValueError` from `strptime` and the empty-run `IndexError` become the
  error values `MissingField`, `BadTimestamp` and `NoLinesParsed`.
- ParseLogs: does not model the `OutOfBoundsDatetime` that
  `pd.to_datetime` raises for dates outside pandas' nanosecond range (about
  1677-09-21 to 2262-04-11). Any year from 1 to 9999 that `strptime` accepts
  is carried into the report. That range is a property of the dataframe
  library, not of the parsing code.
- Plotting (`plot.py`) and the command-line entry point are outside the core.

=== FILE: dates.dfy ===
/** Calendar dates and the `datetime.strptime(text, "%d/%b/%Y")` call that
    turns an access-log timestamp such as `15/Jul/2019` into a date
    (usage_plotter/parse.py line 179). */
module Dates {
  import opened Results
  import opened Segments

  /** A calendar month number. */
  type Month = m: int | 1 <= m <= 12 witness 1

  /** A proleptic Gregorian date, as Python's `datetime.date`. */
  datatype Date = Date(year: int, month: Month, day: int)

  predicate IsLeapYear(y: int) {
    y % 4 == 0 && (y % 100 != 0 || y % 400 == 0)
  }

  function DaysInMonth(year: int, month: Month): (n: int)
    ensures 28 <= n <= 31
    ensures n == 29 <==> month == 2 && IsLeapYear(year)
  {
    if month == 2 then (if IsLeapYear(year) then 29 else 28)
    else if month == 4 || month == 6 || month == 9 || month == 11 then 30
    else 31
  }

  /** The dates `datetime.date` accepts: years 1 to 9999 and a day that
      exists in its month. */
  predicate ValidDate(d: Date) {
    1 <= d.year <= 9999 && 1 <= d.day <= DaysInMonth(d.year, d.month)
  }

  /** The English month abbreviations `%b` matches, January first. */
  const MonthAbbreviations: seq<string> :=
    ["Jan", "Feb", "Mar", "Apr", "May", "Jun", "Jul", "Aug", "Sep", "Oct", "Nov", "Dec"]

  /** Why `strptime` raises `ValueError`: the text does not have the
      day/month/year shape, or it names a date that does not exist. */
  datatype DateError = FormatMismatch | InvalidDate

  predicate IsDigit(c: char) {
    '0' <= c <= '9'
  }

  function DigitValue(c: char): (v: int)
    requires IsDigit(c)
    ensures 0 <= v <= 9
  {
    c as int - '0' as int
  }

  function DigitChar(v: int): (c: char)
    requires 0 <= v <= 9
    ensures IsDigit(c) && DigitValue(c) == v
  {
    ('0' as int + v) as char
  }

  function Pow10(n: nat): (p: nat)
    ensures p >= 1
  {
    if n == 0 then 1 else 10 * Pow10(n - 1)
  }

  /** The value of a string of decimal digits, most significant first. */
  function DigitsValue(s: string): (v: int)
    requires forall i :: 0 <= i < |s| ==> IsDigit(s[i])
    ensures 0 <= v < Pow10(|s|)
    decreases |s|
  {
    if |s| == 0 then 0
    else DigitsValue(s[..|s| - 1]) * 10 + DigitValue(s[|s| - 1])
  }

  function LowerAscii(c: char): char {
    if 'A' <= c <= 'Z' then (c as int + 32) as char else c
  }

  /** ASCII lower-casing of a whole string. */
  function Lower(s: string): (r: string)
    ensures |r| == |s|
    ensures forall i :: 0 <= i < |s| ==> r[i] == LowerAscii(s[i])
  {
    if |s| == 0 then "" else [LowerAscii(s[0])] + Lower(s[1..])
  }

  /** The ways `%d` lets a text spell day `n`: a day below 10 as one
      digit, or as a digit after `0` or after a space; a later day as its
      two digits. */
  predicate DaySpelling(tok: string, n: int) {
    || (1 <= n <= 9 && (tok == [DigitChar(n)] || tok == ['0', DigitChar(n)] || tok == [' ', DigitChar(n)]))
    || (10 <= n <= 31 && tok == [DigitChar(n / 10), DigitChar(n % 10)])
  }

  /** The `%d` directive: `3[01]`, `[12]\d`, `0[1-9]`, `[1-9]` or a
      space followed by `[1-9]`, and nothing else. */
  function ParseDay(tok: string): (r: Option<int>)
    ensures r.Some? ==> 1 <= r.value <= 31
    ensures forall n :: DaySpelling(tok, n) <==> r == Some(n)
  {
    if |tok| == 1 && '1' <= tok[0] <= '9' then Some(DigitValue(tok[0]))
    else if |tok| != 2 then None
    else if (tok[0] == '0' || tok[0] == ' ') && '1' <= tok[1] <= '9' then Some(DigitValue(tok[1]))
    else if '1' <= tok[0] <= '2' && IsDigit(tok[1]) then Some(10 * DigitValue(tok[0]) + DigitValue(tok[1]))
    else if tok[0] == '3' && '0' <= tok[1] <= '1' then Some(30 + DigitValue(tok[1]))
    else None
  }

  /** The `%b` directive: the number of the month whose abbreviation the
      token spells, ignoring case, searching from month `from`. `strptime`
      compares lower-cased forms. */
  function ParseMonthFrom(tok: string, from: nat): (r: Option<Month>)
    requires from <= 12
    ensures r.Some? ==> from < r.value && Lower(tok) == Lower(MonthAbbreviations[r.value - 1])
    ensures r.None? ==> forall i :: from <= i < 12 ==> Lower(tok) != Lower(MonthAbbreviations[i])
    decreases 12 - from
  {
    if from == 12 then None
    else if Lower(tok) == Lower(MonthAbbreviations[from]) then Some(from + 1)
    else ParseMonthFrom(tok, from + 1)
  }

  /** The way `%b` lets a text spell month `m`: its English abbreviation
      in any mix of upper- and lower-case letters. */
  predicate MonthSpelling(tok: string, m: Month) {
    Lower(tok) == Lower(MonthAbbreviations[m - 1])
  }

  /** The `%b` directive. */
  function ParseMonth(tok: string): (r: Option<Month>)
    ensures forall m: Month :: MonthSpelling(tok, m) <==> r == Some(m)
  {
    LowerAbbreviationsDistinct();
    ParseMonthFrom(tok, 0)
  }

  /** The way `%Y` lets a text spell year `y`: its four digits,
      zero-padded. */
  predicate YearSpelling(tok: string, y: int) {
    0 <= y <= 9999 && tok == Pad4(y)
  }

  /** The `%Y` directive: exactly four decimal digits. */
  function ParseYear(tok: string): (r: Option<int>)
    ensures r.Some? ==> 0 <= r.value <= 9999
    ensures forall y :: YearSpelling(tok, y) <==> r == Some(y)
  {
    if |tok| == 4 && forall i :: 0 <= i < 4 ==> IsDigit(tok[i]) then
      Pad4OfDigits(tok);
      assert YearSpelling(tok, DigitsValue(tok));
      assert forall y :: YearSpelling(tok, y) ==> y == DigitsValue(tok) by {
        forall y | YearSpelling(tok, y) ensures y == DigitsValue(tok) {
          DigitsOfPad4(y);
        }
      }
      Some(DigitsValue(tok))
    else
      None
  }

  /** Text `text` spells date `d` in the layout `%d/%b/%Y`: three
      `/`-separated parts spelling its day, month and year. */
  predicate Spells(text: string, d: Date) {
    var parts := Split(text, '/');
    && |parts| == 3
    && DaySpelling(parts[0], d.day)
    && MonthSpelling(parts[1], d.month)
    && YearSpelling(parts[2], d.year)
  }

  /** `datetime.strptime(text, "%d/%b/%Y").date()`: the whole text must be
      a day, a month abbreviation and a four-digit year separated by `/`,
      and the date must exist. */
  function ParseDate(text: string): (r: Result<Date, DateError>)
    ensures r.Success? ==> ValidDate(r.value) && Spells(text, r.value)
    ensures forall d :: ValidDate(d) && Spells(text, d) ==> r == Success(d)
    ensures r == Failure(FormatMismatch) <==> forall d :: !Spells(text, d)
  {
    var parts := Split(text, '/');
    if |parts| != 3 then
      Failure(FormatMismatch)
    else
      var day, month, year := ParseDay(parts[0]), ParseMonth(parts[1]), ParseYear(parts[2]);
      assert forall d :: Spells(text, d) <==> day == Some(d.day) && month == Some(d.month) && year == Some(d.year);
      if day.None? || month.None? || year.None? then
        Failure(FormatMismatch)
      else
        var d := Date(year.value, month.value, day.value);
        assert Spells(text, d);
        if d.year < 1 || d.day > DaysInMonth(d.year, d.month) then Failure(InvalidDate)
        else Success(d)
  }

  /** Two decimal digits, zero-padded. */
  function Pad2(n: int): (s: string)
    requires 0 <= n <= 99
    ensures |s| == 2 && IsDigit(s[0]) && IsDigit(s[1])
  {
    [DigitChar(n / 10), DigitChar(n % 10)]
  }

  /** Four decimal digits, zero-padded. */
  function Pad4(n: int): (s: string)
    requires 0 <= n <= 9999
    ensures |s| == 4 && forall i :: 0 <= i < 4 ==> IsDigit(s[i])
  {
    [DigitChar(n / 1000), DigitChar(n / 100 % 10), DigitChar(n / 10 % 10), DigitChar(n % 10)]
  }

  /** The date in the access-log layout, e.g. `05/Jul/2019`. */
  function FormatDate(d: Date): string
    requires ValidDate(d)
  {
    Join([Pad2(d.day), MonthAbbreviations[d.month - 1], Pad4(d.year)], "/")
  }

  lemma ParseDayPad2(n: int)
    requires 1 <= n <= 31
    ensures ParseDay(Pad2(n)) == Some(n)
  {
  }

  lemma ParseYearPad4(n: int)
    requires 0 <= n <= 9999
    ensures ParseYear(Pad4(n)) == Some(n)
  {
    assert YearSpelling(Pad4(n), n);
  }

  /** Four digits read as a number and written back zero-padded give the
      same four digits. */
  lemma Pad4OfDigits(tok: string)
    requires |tok| == 4 && forall i :: 0 <= i < 4 ==> IsDigit(tok[i])
    ensures Pad4(DigitsValue(tok)) == tok
  {
    var a, b, c, d := DigitValue(tok[0]), DigitValue(tok[1]), DigitValue(tok[2]), DigitValue(tok[3]);
    assert tok[..1][..0] == [];
    assert DigitsValue(tok[..1]) == a;
    assert DigitsValue(tok[..2]) == a * 10 + b by {
      assert tok[..2][..1] == tok[..1];
    }
    assert DigitsValue(tok[..3]) == a * 100 + b * 10 + c by {
      assert tok[..3][..2] == tok[..2];
    }
    assert tok[..4] == tok;
    var v := DigitsValue(tok);
    assert v == a * 1000 + b * 100 + c * 10 + d;
    DigitsOfNumber(a, b, c, d);
    var p := Pad4(v);
    assert p[0] == tok[0] && p[1] == tok[1] && p[2] == tok[2] && p[3] == tok[3];
  }

  /** The decimal digits of a four-digit number are recovered by division. */
  lemma DigitsOfNumber(a: int, b: int, c: int, d: int)
    requires 0 <= a <= 9 && 0 <= b <= 9 && 0 <= c <= 9 && 0 <= d <= 9
    ensures var v := a * 1000 + b * 100 + c * 10 + d;
      v / 1000 == a && v / 100 % 10 == b && v / 10 % 10 == c && v % 10 == d
  {
    var v := a * 1000 + b * 100 + c * 10 + d;
    assert v / 10 == a * 100 + b * 10 + c;
    assert v / 100 == a * 10 + b;
    assert v / 1000 == a;
  }

  /** A year written zero-padded and read back as a number gives the year. */
  lemma DigitsOfPad4(n: int)
    requires 0 <= n <= 9999
    ensures DigitsValue(Pad4(n)) == n
  {
    var s := Pad4(n);
    assert s[..3][..2][..1][..0] == [];
    assert DigitsValue(s[..1]) == n / 1000;
    assert DigitsValue(s[..2]) == n / 100 by {
      assert s[..2][..1] == s[..1];
    }
    assert DigitsValue(s[..3]) == n / 10 by {
      assert s[..3][..2] == s[..2];
    }
    assert s[..4] == s;
  }

  lemma ParseMonthAbbreviation(m: Month)
    ensures ParseMonth(MonthAbbreviations[m - 1]) == Some(m)
  {
    assert MonthSpelling(MonthAbbreviations[m - 1], m);
  }

  /** No two month abbreviations are equal ignoring case, so `%b` names at
      most one month. */
  lemma LowerAbbreviationsDistinct()
    ensures forall i, j :: 0 <= i < j < 12 ==> Lower(MonthAbbreviations[i]) != Lower(MonthAbbreviations[j])
  {
  }

  /** Formatting a valid date and parsing it back gives the same date. */
  lemma ParseFormatRoundTrip(d: Date)
    requires ValidDate(d)
    ensures ParseDate(FormatDate(d)) == Success(d)
  {
    var parts := [Pad2(d.day), MonthAbbreviations[d.month - 1], Pad4(d.year)];
    assert forall i :: 0 <= i < |parts| ==> '/' !in parts[i];
    SplitJoin(parts, '/');
    ParseDayPad2(d.day);
    ParseMonthAbbreviation(d.month);
    ParseYearPad4(d.year);
  }

  /** The 29th of February parses exactly in leap years. */
  lemma LeapDayParsesIffLeapYear(y: int)
    requires 1 <= y <= 9999
    ensures ParseDate(Join([Pad2(29), "Feb", Pad4(y)], "/")).Success? <==> IsLeapYear(y)
  {
    var parts := [Pad2(29), "Feb", Pad4(y)];
    assert forall i :: 0 <= i < |parts| ==> '/' !in parts[i];
    SplitJoin(parts, '/');
    ParseDayPad2(29);
    ParseMonthAbbreviation(2);
    ParseYearPad4(y);
  }
}

=== FILE: facets.dfy ===
/** The facet vocabularies (`AVAILABLE_FACETS`, usage_plotter/parse.py
    lines 37-59) and the classifier that matches the dot-separated segments
    of a dataset id against them (lines 203-209). */
module Facets {
  import opened Results
  import opened Segments

  /** The six facets, declared in the order of `AVAILABLE_FACETS`. */
  datatype FacetName = Realm | DataType | TimeFrequency | Activity | ScienceDriver | Campaign

  /** The candidate values of each facet, in declaration order. */
  function Vocabulary(f: FacetName): seq<string> {
    match f
    case Realm => ["ocean", "atmos", "land", "sea-ice"]
    case DataType => ["time-series", "climo", "model-output", "mapping", "restart"]
    case TimeFrequency =>
      ["3hr", "3hr_snap", "5day_snap", "6hr", "6hr_ave", "6hr_snap", "day", "day_cosp", "fixed", "mon", "monClim"]
    case Activity => ["C4MIP", "CMIP", "DAMIP", "ScenarioMIP"]
    case ScienceDriver => ["Biogeochemical Cycle", "Cryosphere", "Water Cycle"]
    case Campaign => ["BGC-v1", "Cryosphere-v1", "DECK-v1", "HighResMIP-v1"]
  }

  /** The value of every facet for one dataset id; `None` when unclassified. */
  datatype FacetValues = FacetValues(
    realm: Option<string>,
    dataType: Option<string>,
    timeFrequency: Option<string>,
    activity: Option<string>,
    scienceDriver: Option<string>,
    campaign: Option<string>)
  {
    function Get(f: FacetName): Option<string> {
      match f
      case Realm => realm
      case DataType => dataType
      case TimeFrequency => timeFrequency
      case Activity => activity
      case ScienceDriver => scienceDriver
      case Campaign => campaign
    }
  }

  /** `options[i]` is a segment and no later option is. */
  predicate IsLastMatch(options: seq<string>, segs: seq<string>, i: int) {
    0 <= i < |options| && options[i] in segs
    && forall j :: i < j < |options| ==> options[j] !in segs
  }

  /** The option that occurs last in `options` among those equal to some
      segment; `None` when no option is a segment. */
  function LastMatch(options: seq<string>, segs: seq<string>): (r: Option<string>)
    ensures r.None? <==> forall i :: 0 <= i < |options| ==> options[i] !in segs
    ensures r.Some? ==> exists i :: IsLastMatch(options, segs, i) && options[i] == r.value
    decreases |options|
  {
    if |options| == 0 then None
    else
      var n := |options| - 1;
      if options[n] in segs then
        assert IsLastMatch(options, segs, n);
        Some(options[n])
      else
        var r := LastMatch(options[..n], segs);
        assert r.Some? ==> exists i :: IsLastMatch(options, segs, i) && options[i] == r.value by {
          if r.Some? {
            var i :| IsLastMatch(options[..n], segs, i) && options[..n][i] == r.value;
            assert IsLastMatch(options, segs, i);
          }
        }
        r
  }

  /** The classifier's inner loop: every option is tried in order and each
      hit overwrites the candidate, so the last hit wins. */
  method MatchFacet(options: seq<string>, segs: seq<string>) returns (m: Option<string>)
    ensures m == LastMatch(options, segs)
    ensures m.Some? ==> m.value in options && m.value in segs
  {
    m := None;
    var i := 0;
    while i < |options|
      invariant 0 <= i <= |options|
      invariant m == LastMatch(options[..i], segs)
    {
      assert options[..i + 1][..i] == options[..i];
      if options[i] in segs {
        m := Some(options[i]);
      }
      i := i + 1;
    }
    assert options[..|options|] == options;
  }

  /** Facet classification of a dataset id: split it on `.` and match each
      facet's vocabulary against the segments (exact equality). */
  function Classify(datasetId: string): (fv: FacetValues)
    ensures forall f :: fv.Get(f) == LastMatch(Vocabulary(f), Split(datasetId, '.'))
  {
    var segs := Split(datasetId, '.');
    FacetValues(
      LastMatch(Vocabulary(Realm), segs),
      LastMatch(Vocabulary(DataType), segs),
      LastMatch(Vocabulary(TimeFrequency), segs),
      LastMatch(Vocabulary(Activity), segs),
      LastMatch(Vocabulary(ScienceDriver), segs),
      LastMatch(Vocabulary(Campaign), segs))
  }

  /** A facet value is always an entry of that facet's vocabulary that is
      literally one of the dataset id's segments, and it is absent exactly
      when no entry is. */
  lemma ClassifySound(datasetId: string, f: FacetName)
    ensures var v := Classify(datasetId).Get(f);
      v.Some? ==> v.value in Vocabulary(f) && v.value in Split(datasetId, '.')
    ensures Classify(datasetId).Get(f).None? <==>
      forall i :: 0 <= i < |Vocabulary(f)| ==> Vocabulary(f)[i] !in Split(datasetId, '.')
  {
    var voc := Vocabulary(f);
    var segs := Split(datasetId, '.');
    var v := LastMatch(voc, segs);
    if v.Some? {
      var k :| IsLastMatch(voc, segs, k) && voc[k] == v.value;
    }
  }

  /** No vocabulary lists a value twice, so a matched value names exactly
      one position in its vocabulary. */
  lemma VocabulariesAreDuplicateFree(f: FacetName)
    ensures forall i, j :: 0 <= i < j < |Vocabulary(f)| ==> Vocabulary(f)[i] != Vocabulary(f)[j]
  {
  }

  /** The match depends only on which options are segments, not on the
      order or repetition of the segments. */
  lemma {:induction false} LastMatchDependsOnMembership(options: seq<string>, s1: seq<string>, s2: seq<string>)
    requires forall i :: 0 <= i < |options| ==> (options[i] in s1 <==> options[i] in s2)
    ensures LastMatch(options, s1) == LastMatch(options, s2)
    decreases |options|
  {
    if |options| > 0 {
      LastMatchDependsOnMembership(options[..|options| - 1], s1, s2);
    }
  }

  /** Two dataset ids with the same set of segments are classified alike:
      classification looks at which segments occur, not where or how often. */
  lemma ClassifySegmentOrderIrrelevant(a: string, b: string)
    requires forall s :: s in Split(a, '.') <==> s in Split(b, '.')
    ensures Classify(a) == Classify(b)
  {
    var sa := Split(a, '.');
    var sb := Split(b, '.');
    LastMatchDependsOnMembership(Vocabulary(Realm), sa, sb);
    LastMatchDependsOnMembership(Vocabulary(DataType), sa, sb);
    LastMatchDependsOnMembership(Vocabulary(TimeFrequency), sa, sb);
    LastMatchDependsOnMembership(Vocabulary(Activity), sa, sb);
    LastMatchDependsOnMembership(Vocabulary(ScienceDriver), sa, sb);
    LastMatchDependsOnMembership(Vocabulary(Campaign), sa, sb);
  }

  /** When two entries of a vocabulary both occur, the one declared later
      wins, wherever the two stand in the dataset id. */
  lemma LaterVocabularyEntryWins(f: FacetName, i: int, j: int, datasetId: string)
    requires 0 <= i < j < |Vocabulary(f)|
    requires Vocabulary(f)[i] in Split(datasetId, '.') && Vocabulary(f)[j] in Split(datasetId, '.')
    ensures Classify(datasetId).Get(f) != Some(Vocabulary(f)[i])
    ensures Classify(datasetId).Get(f).Some?
  {
    var voc := Vocabulary(f);
    var segs := Split(datasetId, '.');
    var v := LastMatch(voc, segs);
    VocabulariesAreDuplicateFree(f);
    var k :| IsLastMatch(voc, segs, k) && voc[k] == v.value;
    assert j <= k;
  }
}

=== FILE: fiscal.dfy ===
/** The fiscal part of the report (usage_plotter/parse.py lines 246-319):
    calendar months are mapped onto a July–June fiscal year, labelled by
    the calendar year in which it ends (pandas' `Q-JUN` frequency), onto
    fiscal quarters and onto fiscal months. */
module Fiscal {
  import opened Results
  import opened Text
  import opened Segments
  import opened Replacing
  import opened Dates
  import opened Facets
  import opened LogLines
  import opened Reports

  /** `convert_to_fiscal_month`: a lookup in the literal table
      {7:1, …, 12:6, 1:7, …, 6:12}; any other month is a `KeyError`
      (`None`). */
  function ConvertToFiscalMonth(month: int): (r: Option<Month>)
    ensures r.Some? <==> 1 <= month <= 12
    ensures r.Some? && month >= 7 ==> r.value == month - 6
    ensures r.Some? && month <= 6 ==> r.value == month + 6
  {
    var table := map[7 := 1, 8 := 2, 9 := 3, 10 := 4, 11 := 5, 12 := 6,
                     1 := 7, 2 := 8, 3 := 9, 4 := 10, 5 := 11, 6 := 12];
    if month in table then Some(table[month]) else None
  }

  /** Applying the table twice gives the month back: it is its own inverse,
      hence a bijection on 1..12. */
  lemma FiscalMonthInvolution(month: int)
    requires 1 <= month <= 12
    ensures ConvertToFiscalMonth(month).Some?
    ensures ConvertToFiscalMonth(ConvertToFiscalMonth(month).value) == Some(month)
  {
  }

  /** No two calendar months share a fiscal month. */
  lemma FiscalMonthInjective(a: int, b: int)
    requires ConvertToFiscalMonth(a).Some? && ConvertToFiscalMonth(a) == ConvertToFiscalMonth(b)
    ensures a == b
  {
  }

  /** Every fiscal month is reached. */
  lemma FiscalMonthSurjective(fm: Month)
    ensures exists month :: 1 <= month <= 12 && ConvertToFiscalMonth(month) == Some(fm)
  {
    var month := if fm <= 6 then fm + 6 else fm - 6;
    assert ConvertToFiscalMonth(month) == Some(fm);
  }

  /** The fiscal month as a total function on `Month`. */
  function FiscalMonth(month: Month): Month {
    ConvertToFiscalMonth(month).value
  }

  /** A `Q-JUN` quarter period: the fiscal year is named after the
      calendar year in which it ends. */
  datatype FiscalPeriod = FiscalPeriod(year: int, quarter: int)

  /** Months counted from January of year 0. */
  function MonthOrdinal(year: int, month: Month): int {
    year * 12 + (month - 1)
  }

  /** Reference for `Period(year-month).asfreq("Q-JUN")`: shifting the
      month count by six moves July to the start of a year; the year of the
      shifted count is the fiscal year and its month, in threes, the
      quarter. */
  function QuarterOf(year: int, month: Month): (p: FiscalPeriod)
    ensures 1 <= p.quarter <= 4
  {
    var s := MonthOrdinal(year, month) + 6;
    FiscalPeriod(s / 12, (s % 12) / 3 + 1)
  }

  lemma DivModUnique(s: int, q: int, r: int)
    requires s == q * 12 + r && 0 <= r < 12
    ensures s / 12 == q && s % 12 == r
  {
  }

  /** Months 7–12 belong to the fiscal year named after the following
      calendar year, months 1–6 to the one named after the current year,
      and the quarter is the fiscal month divided by three, rounded up. */
  lemma QuarterRule(year: int, month: Month)
    ensures QuarterOf(year, month).year == (if month >= 7 then year + 1 else year)
    ensures QuarterOf(year, month).quarter == (FiscalMonth(month) + 2) / 3
  {
    var s := MonthOrdinal(year, month) + 6;
    if month >= 7 {
      DivModUnique(s, year + 1, month - 7);
    } else {
      DivModUnique(s, year, month + 5);
    }
  }

  /** The fiscal-year boundary: 30 June 2020 is in FY2020 Q4, 1 July 2020
      in FY2021 Q1. */
  lemma FiscalYearBoundary()
    ensures QuarterOf(2020, 6) == FiscalPeriod(2020, 4)
    ensures QuarterOf(2020, 7) == FiscalPeriod(2021, 1)
  {
    QuarterRule(2020, 6);
    QuarterRule(2020, 7);
  }

  /** A month lies in a fiscal quarter exactly when it is one of the three
      consecutive months that start at that quarter's first month. */
  lemma QuarterIsThreeConsecutiveMonths(year: int, month: Month, p: FiscalPeriod)
    requires 1 <= p.quarter <= 4
    ensures QuarterOf(year, month) == p <==>
      var first := p.year * 12 - 6 + 3 * (p.quarter - 1);
      first <= MonthOrdinal(year, month) < first + 3
  {
    var s := MonthOrdinal(year, month) + 6;
    var q := QuarterOf(year, month);
    DivModUnique(s, s / 12, s % 12);
    var first := p.year * 12 - 6 + 3 * (p.quarter - 1);
    if first <= MonthOrdinal(year, month) < first + 3 {
      var r := 3 * (p.quarter - 1) + (MonthOrdinal(year, month) - first);
      DivModUnique(s, p.year, r);
    }
  }

  /** Ordering of fiscal periods: by year, then quarter. */
  predicate PeriodLessEq(a: FiscalPeriod, b: FiscalPeriod) {
    a.year < b.year || (a.year == b.year && a.quarter <= b.quarter)
  }

  /** A later calendar month never lies in an earlier fiscal quarter. */
  lemma QuarterMonotone(y1: int, m1: Month, y2: int, m2: Month)
    requires MonthOrdinal(y1, m1) <= MonthOrdinal(y2, m2)
    ensures PeriodLessEq(QuarterOf(y1, m1), QuarterOf(y2, m2))
  {
    var s1 := MonthOrdinal(y1, m1) + 6;
    var s2 := MonthOrdinal(y2, m2) + 6;
    DivModUnique(s1, s1 / 12, s1 % 12);
    DivModUnique(s2, s2 / 12, s2 % 12);
  }

  /** One row of the quarterly report. */
  datatype QuarterRow = QuarterRow(
    calendarYr: int,
    calendarMonth: Month,
    fiscalYr: int,
    fiscalQuarter: int,
    fiscalMonth: Month,
    facet: Option<string>,
    requests: nat,
    mb: nat)

  /** The quarter row of one monthly row. */
  function QuarterRowOf(row: MonthRow): (q: QuarterRow)
    ensures q.fiscalYr == (if row.key.month >= 7 then row.key.year + 1 else row.key.year)
    ensures q.fiscalQuarter == (q.fiscalMonth + 2) / 3
    ensures ConvertToFiscalMonth(q.fiscalMonth) == Some(row.key.month)
    ensures q.calendarYr == row.key.year && q.calendarMonth == row.key.month
    ensures q.facet == row.key.facet && q.requests == row.requests && q.mb == row.mb
  {
    var p := QuarterOf(row.key.year, row.key.month);
    QuarterRule(row.key.year, row.key.month);
    FiscalMonthInvolution(row.key.month);
    QuarterRow(row.key.year, row.key.month, p.year, p.quarter, FiscalMonth(row.key.month),
               row.key.facet, row.requests, row.mb)
  }

  /** `resample_to_quarter`: the grouping keys include the calendar year
      and month, which already identify a monthly row, so each monthly row
      becomes exactly one quarter row, in the same order. */
  function ResampleToQuarter(rows: seq<MonthRow>): (qs: seq<QuarterRow>)
    ensures |qs| == |rows|
    ensures forall i :: 0 <= i < |rows| ==> qs[i] == QuarterRowOf(rows[i])
  {
    seq(|rows|, i requires 0 <= i < |rows| => QuarterRowOf(rows[i]))
  }

  function QuarterRequests(qs: seq<QuarterRow>): nat {
    if |qs| == 0 then 0 else qs[0].requests + QuarterRequests(qs[1..])
  }

  function QuarterMb(qs: seq<QuarterRow>): nat {
    if |qs| == 0 then 0 else qs[0].mb + QuarterMb(qs[1..])
  }

  /** Resampling neither drops nor invents requests or sizes. */
  lemma {:induction false} ResamplePreservesTotals(rows: seq<MonthRow>)
    ensures QuarterRequests(ResampleToQuarter(rows)) == TotalRequests(rows)
    ensures QuarterMb(ResampleToQuarter(rows)) == TotalMb(rows)
  {
    if |rows| > 0 {
      ResamplePreservesTotals(rows[1..]);
      assert ResampleToQuarter(rows)[1..] == ResampleToQuarter(rows[1..]);
    }
  }

  /** Requests of the quarter rows of one fiscal year. */
  function RequestsInFiscalYear(qs: seq<QuarterRow>, fy: int): nat {
    if |qs| == 0 then 0
    else (if qs[0].fiscalYr == fy then qs[0].requests else 0) + RequestsInFiscalYear(qs[1..], fy)
  }

  /** Requests of the monthly rows whose month falls in fiscal year `fy`
      by the `Q-JUN` reference. */
  function MonthlyRequestsInFiscalYear(rows: seq<MonthRow>, fy: int): nat {
    if |rows| == 0 then 0
    else (if QuarterOf(rows[0].key.year, rows[0].key.month).year == fy then rows[0].requests else 0)
         + MonthlyRequestsInFiscalYear(rows[1..], fy)
  }

  /** The monthly counts of the months of a fiscal year add up to that
      fiscal year's count in the quarterly report. */
  lemma {:induction false} FiscalYearTotals(rows: seq<MonthRow>, fy: int)
    ensures RequestsInFiscalYear(ResampleToQuarter(rows), fy) == MonthlyRequestsInFiscalYear(rows, fy)
  {
    if |rows| > 0 {
      FiscalYearTotals(rows[1..], fy);
      assert ResampleToQuarter(rows)[1..] == ResampleToQuarter(rows[1..]);
      QuarterRule(rows[0].key.year, rows[0].key.month);
    }
  }

  /** Resampling a key-sorted monthly report yields quarter rows in
      ascending fiscal order. */
  lemma ResampleIsFiscallyOrdered(rows: seq<MonthRow>, i: int, j: int)
    requires StrictlySorted(RowKeys(rows))
    requires 0 <= i < j < |rows|
    ensures var qs := ResampleToQuarter(rows);
      PeriodLessEq(FiscalPeriod(qs[i].fiscalYr, qs[i].fiscalQuarter),
                   FiscalPeriod(qs[j].fiscalYr, qs[j].fiscalQuarter))
  {
    var a := rows[i].key;
    var b := rows[j].key;
    assert RowKeys(rows)[i] == a && RowKeys(rows)[j] == b;
    assert KeyLess(a, b);
    QuarterRule(a.year, a.month);
    QuarterRule(b.year, b.month);
    QuarterMonotone(a.year, a.month, b.year, b.month);
  }

  /** `gen_report`: the monthly report, resampled to quarters. */
  function GenReport(ls: seq<LogLine>, facet: Option<FacetName>, keepAbsent: bool): (qs: seq<QuarterRow>)
    ensures |qs| == |MonthlyReport(ls, facet, keepAbsent)|
    ensures QuarterMb(qs) == SuccessfulMb(Considered(ls, facet, keepAbsent))
    ensures QuarterRequests(qs) ==
      CountKeysIn(Considered(ls, facet, keepAbsent), facet, RowKeys(MonthlyReport(ls, facet, keepAbsent)))
  {
    var rows := MonthlyReport(ls, facet, keepAbsent);
    MonthlyTotals(ls, facet, keepAbsent);
    ResamplePreservesTotals(rows);
    ResampleToQuarter(rows)
  }

  lemma {:induction false} AllEqualMultiplicity(ks: seq<MonthKey>, k: MonthKey)
    requires forall x :: x in ks ==> x == k
    ensures multiset(ks)[k] == |ks|
  {
    if |ks| > 0 {
      assert ks == [ks[0]] + ks[1..];
      assert forall x :: x in ks[1..] ==> x in ks;
      AllEqualMultiplicity(ks[1..], k);
      assert ks[0] in ks;
      assert multiset(ks) == multiset{ks[0]} + multiset(ks[1..]);
    }
  }

  lemma {:induction false} DistinctMultiplicity(ks: seq<MonthKey>, k: MonthKey)
    requires forall i, j :: 0 <= i < j < |ks| ==> ks[i] != ks[j]
    ensures multiset(ks)[k] <= 1
  {
    if |ks| > 0 {
      var rest := ks[1..];
      assert ks == [ks[0]] + rest;
      forall i, j | 0 <= i < j < |rest| ensures rest[i] != rest[j] {
        assert rest[i] == ks[i + 1] && rest[j] == ks[j + 1];
      }
      DistinctMultiplicity(rest, k);
      if ks[0] == k {
        forall x | x in rest ensures x != k {
          var j :| 0 <= j < |rest| && rest[j] == x;
          assert ks[j + 1] == x;
        }
      }
    }
  }

  /** A strictly sorted key list whose keys all equal `k`, and which
      holds `k`, holds exactly one key. */
  lemma OnlyKey(ks: seq<MonthKey>, k: MonthKey)
    requires StrictlySorted(ks)
    requires k in ks
    requires forall x :: x in ks ==> x == k
    ensures |ks| == 1
  {
    SortedIsDistinct(ks);
    AllEqualMultiplicity(ks, k);
    DistinctMultiplicity(ks, k);
  }

  /** Two requests under the same key, one successful and one not, give
      a one-row report: both are counted, only the first one's size is
      summed. */
  lemma SuccessAndFailureInOneMonth(a: LogLine, b: LogLine, facet: Option<FacetName>, keepAbsent: bool)
    requires KeyOf(a, facet) == KeyOf(b, facet)
    requires facet.None? || KeyOf(a, facet).facet.Some?
    requires IsSuccess(a.statusCode) && !IsSuccess(b.statusCode)
    ensures MonthlyReport([a, b], facet, keepAbsent) == [MonthRow(KeyOf(a, facet), 2, a.mb)]
  {
    var ls := [a, b];
    var k := KeyOf(a, facet);
    var es := Considered(ls, facet, keepAbsent);
    assert es == ls by {
      assert ls[..1] == [a];
      assert Considered([a], facet, keepAbsent) == [a] by {
        assert [a][..0] == [];
      }
    }
    var rows := MonthlyReport(ls, facet, keepAbsent);
    var ks := RowKeys(rows);
    assert k in ks;
    assert forall x :: x in ks ==> x == k;
    OnlyKey(ks, k);
    assert rows[0].key == k;
    assert KeyList(es, facet) == [k, k];
    assert rows[0].requests == 2;
    assert SizeSum(ls, facet, k) == a.mb by {
      assert ls[..1] == [a];
      assert [a][..0] == [];
      assert SizeSum([a], facet, k) == a.mb;
    }
  }

  /** The realm vocabulary matched against segments holding `atmos` but
      neither of the entries declared after it gives `atmos`; an `ocean`
      segment, declared before it, does not matter. */
  lemma AtmosRealm(segs: seq<string>)
    requires "atmos" in segs && "land" !in segs && "sea-ice" !in segs
    ensures LastMatch(Vocabulary(Realm), segs) == Some("atmos")
  {
    var voc := Vocabulary(Realm);
    assert voc[..3][..2] == ["ocean", "atmos"] && voc[..3] == ["ocean", "atmos", "land"];
  }

  /** A request path `<prefix>user_pub_work/<d1>/.../<dn>/<file>` whose
      directories include `atmos` but neither `land` nor `sea-ice`. */
  predicate AtmosPath(path: string, prefix: string, dirs: seq<string>, file: string) {
    && path == prefix + Marker + "/" + Join(dirs + [file], "/")
    && (forall j :: 0 <= j < |prefix| ==> !OccursAt(prefix + Marker, Marker, j))
    && (forall k :: 0 <= k < |dirs| ==> '/' !in dirs[k] && '.' !in dirs[k])
    && '/' !in file
    && !Contains(path, EncodedSlash)
    && "atmos" in dirs && "land" !in dirs && "sea-ice" !in dirs
  }

  /** The fields of an access-log line requesting `path` on day `day` of
      July 2019, its timestamp token written `[dd/Jul/2019:<time>`. */
  predicate July2019Fields(fs: seq<string>, day: int, time: string, path: string) {
    && |fs| >= 12
    && (forall i :: 0 <= i < |fs| ==> |fs[i]| > 0 && NoSpace(fs[i]))
    && 1 <= day <= 31
    && fs[3] == "[" + FormatDate(Date(2019, 7, day)) + ":" + time
    && fs[6] == path
  }

  /** Such a line, with any line end, parses; it falls under July 2019 and
      the realm `atmos`, and keeps its status and byte fields. */
  lemma ParsedJuly2019(fs: seq<string>, eol: string, day: int, time: string, sizeOf: string -> nat,
                       path: string, prefix: string, dirs: seq<string>, file: string)
    requires AllSpace(eol)
    requires AtmosPath(path, prefix, dirs, file)
    requires July2019Fields(fs, day, time, path)
    ensures var r := ParseLogLine(Join(fs, " ") + eol, sizeOf);
      && r.Success?
      && KeyOf(r.value, Some(Realm)) == MonthKey(2019, 7, Some("atmos"))
      && r.value.statusCode == fs[8] && r.value.bytes == fs[9]
  {
    var line := Join(fs, " ") + eol;
    var r := ParseLogLine(line, sizeOf);
    TimestampRoundTrip(Date(2019, 7, day), time);
    ParseLineFromFields(fs, eol, sizeOf);
    ReplaceAbsent(path, EncodedSlash, "/");
    PathWithMarker(prefix, '/', dirs, file);
    SplitJoin(dirs, '.');
    AtmosRealm(dirs);
    assert r.value.path == path;
    assert r.value.facets == Classify(Join(dirs, "."));
  }

  /** Two access-log lines for the same atmosphere dataset in July 2019,
      a download with status 200 and a failed request with status 404 and
      no byte count, each followed by any line end: both parse, and the
      realm report has one row, in FY2020 Q1 and fiscal month 1, counting
      two requests and only the download's size. */
  lemma EndToEndJuly2019(fs1: seq<string>, fs2: seq<string>, eol1: string, eol2: string,
                         day1: int, day2: int, time1: string, time2: string, sizeOf: string -> nat, keepAbsent: bool,
                         path: string, prefix: string, dirs: seq<string>, file: string)
    requires AllSpace(eol1) && AllSpace(eol2)
    requires AtmosPath(path, prefix, dirs, file)
    requires July2019Fields(fs1, day1, time1, path) && fs1[8] == "200"
    requires July2019Fields(fs2, day2, time2, path) && fs2[8] == "404" && fs2[9] == "-"
    ensures var r1 := ParseLogLine(Join(fs1, " ") + eol1, sizeOf);
      var r2 := ParseLogLine(Join(fs2, " ") + eol2, sizeOf);
      && r1.Success? && r2.Success?
      && r1.value.mb == (if Contains(fs1[9], "-") then 0 else sizeOf(fs1[9]))
      && GenReport([r1.value, r2.value], Some(Realm), keepAbsent)
           == [QuarterRow(2019, 7, 2020, 1, 1, Some("atmos"), 2, r1.value.mb)]
  {
    var r1 := ParseLogLine(Join(fs1, " ") + eol1, sizeOf);
    var r2 := ParseLogLine(Join(fs2, " ") + eol2, sizeOf);
    ParsedJuly2019(fs1, eol1, day1, time1, sizeOf, path, prefix, dirs, file);
    ParsedJuly2019(fs2, eol2, day2, time2, sizeOf, path, prefix, dirs, file);
    var a, b := r1.value, r2.value;
    var facet := Some(Realm);
    var k := MonthKey(2019, 7, Some("atmos"));
    assert IsSuccess(a.statusCode) && !IsSuccess(b.statusCode) by {
      SuccessStatuses();
    }
    assert GenReport([a, b], facet, keepAbsent) == [QuarterRowOf(MonthRow(k, 2, a.mb))] by {
      GenReportOfPair(a, b, facet, keepAbsent);
    }
    July2019Row(k, a.mb);
  }

  /** A July 2019 row lies in FY2020 Q1, fiscal month 1. */
  lemma July2019Row(k: MonthKey, mb: nat)
    requires k.year == 2019 && k.month == 7
    ensures QuarterRowOf(MonthRow(k, 2, mb)) == QuarterRow(2019, 7, 2020, 1, 1, k.facet, 2, mb)
  {
  }

  /** The quarterly report of a successful and a failed request under one
      key is the quarter row of a single monthly row. */
  lemma GenReportOfPair(a: LogLine, b: LogLine, facet: Option<FacetName>, keepAbsent: bool)
    requires KeyOf(a, facet) == KeyOf(b, facet)
    requires facet.None? || KeyOf(a, facet).facet.Some?
    requires IsSuccess(a.statusCode) && !IsSuccess(b.statusCode)
    ensures GenReport([a, b], facet, keepAbsent) == [QuarterRowOf(MonthRow(KeyOf(a, facet), 2, a.mb))]
  {
    SuccessAndFailureInOneMonth(a, b, facet, keepAbsent);
    var row := MonthRow(KeyOf(a, facet), 2, a.mb);
    assert ResampleToQuarter([row]) == [QuarterRowOf(row)];
  }

  /** `200` is a success status and `404` is not. */
  lemma SuccessStatuses()
    ensures IsSuccess("200") && !IsSuccess("404")
  {
    assert OccursAt("200", "200", 0);
    ContainsIff("200", "200");
    ContainsIff("404", "200");
    ContainsIff("404", "206");
  }
}

=== FILE: loglines.dfy ===
/** One access-log line turned into a request record: the download-request
    filter (usage_plotter/parse.py lines 117-125), `parse_log_line`,
    `parse_log_timestamp`, `parse_log_path` and `parse_logs` (lines 62-211). */
module LogLines {
  import opened Results
  import opened Text
  import opened Segments
  import opened Replacing
  import opened Dates
  import opened Facets

  /** Which collection a request belongs to. */
  datatype Project = E3SM | E3SMInCMIP6

  /** The exceptions parsing raises: `IndexError` for a line with too few
      fields, `ValueError` from `strptime`, and the `IndexError` of
      `parse_logs` when no line was parsed at all. */
  datatype ParseError = MissingField | BadTimestamp(reason: DateError) | NoLinesParsed

  /** One parsed request. `mb` is the size the byte-count conversion gave,
      or 0 when the byte token holds a `-`. */
  datatype LogLine = LogLine(
    logLine: string,
    date: Date,
    requesterIp: string,
    path: string,
    datasetId: string,
    fileId: string,
    accessType: string,
    statusCode: string,
    bytes: string,
    mb: nat,
    project: Project,
    facets: FacetValues)
  {
    function CalendarYr(): int {
      date.year
    }

    function CalendarMonth(): Month {
      date.month
    }
  }

  /** The token every admitted line must contain. */
  const ProjectToken: string := "E3SM"

  /** Tokens that mark a line as something other than a data download:
      XML service documents, icons, the variables page, HTML pages, the
      THREDDS catalog and aggregation services. */
  const ExcludedTokens: seq<string> := ["xml", "ico", "cmip6_variables", "html", "catalog", "aggregation"]

  /** The filter `filter_log_lines` applies to each raw line. */
  predicate IsDownloadRequest(line: string) {
    && Contains(line, ProjectToken)
    && forall k :: 0 <= k < |ExcludedTokens| ==> !Contains(line, ExcludedTokens[k])
  }

  /** A line is admitted exactly when the project token occurs at some
      position and no excluded token occurs at any position. */
  lemma DownloadRequestIff(line: string)
    ensures IsDownloadRequest(line) <==>
      (exists i :: OccursAt(line, ProjectToken, i))
      && forall k, i :: 0 <= k < |ExcludedTokens| ==> !OccursAt(line, ExcludedTokens[k], i)
  {
    ContainsIff(line, ProjectToken);
    forall k | 0 <= k < |ExcludedTokens|
      ensures Contains(line, ExcludedTokens[k]) <==> exists i :: OccursAt(line, ExcludedTokens[k], i)
    {
      ContainsIff(line, ExcludedTokens[k]);
    }
  }

  /** The text `parse_log_timestamp` reads as a date: what lies between
      the first `[` and the first `:` of the raw token, sliced with
      Python's rules, so a missing `[` starts at the beginning, a missing
      `:` drops the last character, and a `:` before the `[` gives
      nothing. The clauses cover every combination of the two positions. */
  function TimestampText(raw: string): (text: string)
    ensures var open, colon := Find(raw, "["), Find(raw, ":");
      0 <= open < colon ==> text == raw[open + 1..colon]
    ensures var open, colon := Find(raw, "["), Find(raw, ":");
      0 <= colon < open ==> text == []
    ensures var open, colon := Find(raw, "["), Find(raw, ":");
      open == -1 && 0 <= colon ==> text == raw[..colon]
    ensures var open, colon := Find(raw, "["), Find(raw, ":");
      0 <= open < |raw| - 1 && colon == -1 ==> text == raw[open + 1..|raw| - 1]
    ensures var open, colon := Find(raw, "["), Find(raw, ":");
      open == |raw| - 1 && colon == -1 ==> text == []
    ensures var open, colon := Find(raw, "["), Find(raw, ":");
      open == -1 && colon == -1 && |raw| > 0 ==> text == raw[..|raw| - 1]
    ensures |raw| == 0 ==> text == []
  {
    Slice(raw, Find(raw, "[") + 1, Find(raw, ":"))
  }

  /** `parse_log_timestamp`: the timestamp text read as `%d/%b/%Y`. */
  function ParseLogTimestamp(raw: string): (r: Result<Date, ParseError>)
    ensures r.Success? ==> ValidDate(r.value) && Spells(TimestampText(raw), r.value)
    ensures forall d :: ValidDate(d) && Spells(TimestampText(raw), d) ==> r == Success(d)
    ensures r.Failure? ==> r.error.BadTimestamp?
  {
    match ParseDate(TimestampText(raw))
    case Success(d) => Success(d)
    case Failure(e) => Failure(BadTimestamp(e))
  }

  /** The first `[` and first `:` of a token written as `[date:time`. */
  lemma FindInTimestamp(d: Date, rest: string)
    requires ValidDate(d)
    ensures var raw := "[" + FormatDate(d) + ":" + rest;
      Find(raw, "[") == 0 && Find(raw, ":") == |FormatDate(d)| + 1
  {
    var ds := FormatDate(d);
    var raw := "[" + ds + ":" + rest;
    assert OccursAt(raw, "[", 0);
    assert forall i :: 0 <= i < |ds| ==> ds[i] != ':' by {
      FormatDateCharacters(d);
    }
    assert OccursAt(raw, ":", |ds| + 1);
    forall j | 0 <= j < |ds| + 1 ensures !OccursAt(raw, ":", j) {
      assert raw[j..j + 1] == [raw[j]];
      if j > 0 {
        assert raw[j] == ds[j - 1];
      }
    }
  }

  /** A formatted date holds only digits, letters and `/`. */
  lemma FormatDateCharacters(d: Date)
    requires ValidDate(d)
    ensures forall i :: 0 <= i < |FormatDate(d)| ==> FormatDate(d)[i] != ':' && FormatDate(d)[i] != '['
  {
    var p := Pad2(d.day);
    var m := MonthAbbreviations[d.month - 1];
    var y := Pad4(d.year);
    assert [p, m, y][1..] == [m, y];
    assert [m, y][1..] == [y];
    assert Join([m, y], "/") == m + "/" + y;
    assert Join([p, m, y], "/") == p + "/" + Join([m, y], "/");
    assert FormatDate(d) == p + "/" + (m + "/" + y);
    assert forall i :: 0 <= i < |m| ==> m[i] != ':' && m[i] != '[';
  }

  /** A timestamp token `[dd/Mon/YYYY:...` yields exactly its date. */
  lemma TimestampRoundTrip(d: Date, rest: string)
    requires ValidDate(d)
    ensures ParseLogTimestamp("[" + FormatDate(d) + ":" + rest) == Success(d)
  {
    var ds := FormatDate(d);
    var raw := "[" + ds + ":" + rest;
    FindInTimestamp(d, rest);
    assert raw[1..|ds| + 1] == ds;
    ParseFormatRoundTrip(d);
  }

  /** Without any `:` the slice stops before the last character, so a
      token `[dd/Mon/YYYY]` still yields its date. */
  lemma TimestampWithoutColon(d: Date)
    requires ValidDate(d)
    ensures ParseLogTimestamp("[" + FormatDate(d) + "]") == Success(d)
  {
    var ds := FormatDate(d);
    var raw := "[" + ds + "]";
    FormatDateCharacters(d);
    assert OccursAt(raw, "[", 0);
    assert forall j :: !OccursAt(raw, ":", j) by {
      forall j | 0 <= j && j + 1 <= |raw| ensures !OccursAt(raw, ":", j) {
        assert raw[j..j + 1] == [raw[j]];
        if 0 < j <= |ds| {
          assert raw[j] == ds[j - 1];
        }
      }
    }
    assert raw[1..|raw| - 1] == ds;
    ParseFormatRoundTrip(d);
  }

  /** The path segment after which the dataset id starts. */
  const Marker: string := "user_pub_work"

  /** What `parse_log_path` derives from a decoded path. */
  datatype PathInfo = PathInfo(datasetId: string, fileId: string, facets: FacetValues)

  /** All elements but the last (Python's `xs[:-1]`). */
  function DropLast<T>(xs: seq<T>): seq<T> {
    if |xs| == 0 then [] else xs[..|xs| - 1]
  }

  /** Where the dataset-id part of a path starts: the first
      `user_pub_work`, its end and one more character whatever that
      character is (meant to be the following `/`), or 0 without it. */
  function DatasetStart(path: string): (start: nat)
    ensures !Contains(path, Marker) ==> start == 0
    ensures Contains(path, Marker) ==> start == Find(path, Marker) + |Marker| + 1
  {
    ContainsIff(path, Marker);
    match IndexOf(path, Marker)
    case None => 0
    case Some(i) => i + |Marker| + 1
  }

  /** The dataset id: the `/`-segments of `path[start:]`, all but the
      last, joined with `.`. */
  function DatasetId(path: string): (id: string)
    ensures '/' !in id
    ensures Contains(path, Marker) && Find(path, Marker) + |Marker| == |path| ==> id == ""
  {
    var parts := DropLast(Split(Slice(path, DatasetStart(path), |path|), '/'));
    JoinAvoids(parts, ".", '/');
    Join(parts, ".")
  }

  /** The file id: the last `/`-segment of the path. */
  function FileId(path: string): (f: string)
    ensures '/' !in f
    ensures |f| <= |path| && path[|path| - |f|..] == f
    ensures |f| == |path| || path[|path| - |f| - 1] == '/'
  {
    var all := Split(path, '/');
    LastSegmentIsSuffix(path, '/');
    all[|all| - 1]
  }

  /** `parse_log_path`: dataset id, file id and the facets of the dataset id. */
  function ParseLogPath(path: string): (r: PathInfo)
    ensures r.datasetId == DatasetId(path) && r.fileId == FileId(path)
    ensures '/' !in r.datasetId && '/' !in r.fileId
    ensures |r.fileId| <= |path| && path[|path| - |r.fileId|..] == r.fileId
    ensures |r.fileId| == |path| || path[|path| - |r.fileId| - 1] == '/'
    ensures forall f :: r.facets.Get(f) == LastMatch(Vocabulary(f), Split(r.datasetId, '.'))
  {
    var datasetId := DatasetId(path);
    PathInfo(datasetId, FileId(path), Classify(datasetId))
  }

  /** When the marker first occurs right after `prefix`, the dataset-id
      part of `<prefix>user_pub_work<c><tail>` is `<tail>`: the one
      character `c` after the marker is skipped, whether or not it is `/`. */
  lemma DatasetPartAfterMarker(prefix: string, c: char, tail: string)
    requires forall j :: 0 <= j < |prefix| ==> !OccursAt(prefix + Marker, Marker, j)
    ensures var path := prefix + Marker + [c] + tail;
      Slice(path, DatasetStart(path), |path|) == tail
  {
    var head := prefix + Marker;
    var path := prefix + Marker + [c] + tail;
    assert IsPrefix(head, path) by {
      assert path[..|head|] == head;
    }
    assert OccursAt(head, Marker, |prefix|);
    forall j | 0 <= j <= |prefix| ensures OccursAt(path, Marker, j) <==> OccursAt(head, Marker, j) {
      OccursInPrefix(path, head, Marker, j);
    }
    IndexOfFirst(path, Marker, |prefix|);
    assert path[|prefix| + |Marker| + 1..] == tail;
  }

  /** The file id of `<head>/<tail>` is the last segment of `<tail>`. */
  lemma FileIdAfterSlash(head: string, tail: string)
    ensures var b := Split(tail, '/'); FileId(head + "/" + tail) == b[|b| - 1]
  {
    var t := "/" + tail;
    assert t[0] == '/' && t[1..] == tail;
    assert head + "/" + tail == head + t;
    LastSegmentOfSuffix(head, t, '/');
    var b := Split(tail, '/');
    assert Split(t, '/') == [""] + b;
    assert ([""] + b)[|b|] == b[|b| - 1];
  }

  /** Separator-free directories and file name joined with `/`: splitting
      on `/` gives them back. */
  lemma SplitPathParts(dirs: seq<string>, file: string)
    requires forall k :: 0 <= k < |dirs| ==> '/' !in dirs[k]
    requires '/' !in file
    ensures Split(Join(dirs + [file], "/"), '/') == dirs + [file]
  {
    var parts := dirs + [file];
    assert forall k :: 0 <= k < |parts| ==> '/' !in parts[k];
    SplitJoin(parts, '/');
  }

  /** A path laid out as `<prefix>user_pub_work<c><d1>/.../<dn>/<file>`,
      with the marker first occurring there, yields the dataset id
      `<d1>. ... .<dn>` for any character `c`, and the file id `<file>`
      when `c` is the usual `/`. */
  lemma PathWithMarker(prefix: string, c: char, dirs: seq<string>, file: string)
    requires forall j :: 0 <= j < |prefix| ==> !OccursAt(prefix + Marker, Marker, j)
    requires forall k :: 0 <= k < |dirs| ==> '/' !in dirs[k]
    requires '/' !in file
    ensures var path := prefix + Marker + [c] + Join(dirs + [file], "/");
      DatasetId(path) == Join(dirs, ".") && (c == '/' ==> FileId(path) == file)
  {
    var tail := Join(dirs + [file], "/");
    DatasetPartAfterMarker(prefix, c, tail);
    SplitPathParts(dirs, file);
    assert DropLast(dirs + [file]) == dirs;
    if c == '/' {
      assert prefix + Marker + [c] + tail == prefix + Marker + "/" + tail;
      FileIdAfterSlash(prefix + Marker, tail);
    }
  }

  /** The character after the marker is dropped even when it is not `/`:
      `/d/user_pub_workX/E3SM/a/f.nc` has the dataset id `.E3SM.a`. */
  lemma MarkerSkipsAnyCharacter()
    ensures DatasetId("/d/user_pub_workX/E3SM/a/f.nc") == ".E3SM.a"
  {
    var dirs := ["", "E3SM", "a"];
    MarkerNotInShortPrefix();
    PathWithMarker("/d/", 'X', dirs, "f.nc");
    ExampleJoins();
    ExamplePath();
  }

  /** The example path, spelled out around the marker. */
  lemma ExamplePath()
    ensures "/d/" + Marker + ['X'] + "/E3SM/a/f.nc" == "/d/user_pub_workX/E3SM/a/f.nc"
  {
    var head := "/d/" + Marker + ['X'];
    assert head == "/d/user_pub_workX";
  }

  /** `/d/` is too short to hold the marker, even overlapping it. */
  lemma MarkerNotInShortPrefix()
    ensures forall j :: 0 <= j < 3 ==> !OccursAt("/d/" + Marker, Marker, j)
  {
    var head := "/d/" + Marker;
    forall j | 0 <= j < 3 ensures !OccursAt(head, Marker, j) {
      assert head[j + 12] in "wor";
    }
  }

  /** The joins the example path is built from. */
  lemma ExampleJoins()
    ensures Join(["", "E3SM", "a"] + ["f.nc"], "/") == "/E3SM/a/f.nc"
    ensures Join(["", "E3SM", "a"], ".") == ".E3SM.a"
  {
    var dirs := ["", "E3SM", "a"];
    var parts := dirs + ["f.nc"];
    assert parts[1..][1..][1..] == ["f.nc"];
    assert Join(parts[1..][1..], "/") == "a/f.nc";
    assert Join(parts[1..], "/") == "E3SM/a/f.nc";
    assert parts[0] == "" && |parts| == 4;
    assert Join(parts, "/") == "" + "/" + "E3SM/a/f.nc";
    assert "" + "/" + "E3SM/a/f.nc" == "/E3SM/a/f.nc";
    assert dirs[1..][1..] == ["a"];
    assert Join(dirs[1..], ".") == "E3SM.a";
  }

  /** Without the marker the slice `path[None:]` is the whole path, so the
      dataset id joins every directory segment of it: a leading `/` gives
      a leading `.`, and a bare file name gives the empty id. */
  lemma PathWithoutMarker(dirs: seq<string>, file: string)
    requires forall k :: 0 <= k < |dirs| ==> '/' !in dirs[k]
    requires '/' !in file
    requires !Contains(Join(dirs + [file], "/"), Marker)
    ensures var path := Join(dirs + [file], "/");
      DatasetId(path) == Join(dirs, ".") && FileId(path) == file
  {
    var path := Join(dirs + [file], "/");
    ContainsIff(path, Marker);
    assert DatasetStart(path) == 0;
    SplitPathParts(dirs, file);
    assert DropLast(dirs + [file]) == dirs;
    assert Slice(path, 0, |path|) == path;
  }

  /** The marker that puts a request in the "E3SM in CMIP6" collection. */
  const CmipMarker: string := "/E3SM-Project"

  /** `parse_log_line`: split the line on whitespace and pick the fields
      of the access-log layout by position (0 requester, 3 timestamp,
      6 path, 8 status, 9 bytes, 11 access type). `sizeOf` is the
      byte-count conversion, applied only when the byte token has no `-`. */
  function ParseLogLine(line: string, sizeOf: string -> nat): (r: Result<LogLine, ParseError>)
    ensures r.Failure? && r.error == MissingField <==> |Fields(line)| < 12
    ensures r.Success? <==> |Fields(line)| >= 12 && ParseLogTimestamp(Fields(line)[3]).Success?
    ensures r.Success? ==> var fs := Fields(line); var l := r.value;
      && l.logLine == line
      && l.requesterIp == fs[0] && l.statusCode == fs[8] && l.bytes == fs[9] && l.accessType == fs[11]
      && l.path == DecodeSlashes(fs[6])
      && ParseLogTimestamp(fs[3]) == Success(l.date)
    ensures r.Success? ==> !Contains(r.value.path, EncodedSlash)
    ensures r.Success? ==> (r.value.project == E3SMInCMIP6 <==> Contains(r.value.path, CmipMarker))
    ensures r.Success? ==> (Contains(r.value.bytes, "-") ==> r.value.mb == 0)
    ensures r.Success? ==> (!Contains(r.value.bytes, "-") ==> r.value.mb == sizeOf(r.value.bytes))
    ensures r.Success? ==>
      ParseLogPath(r.value.path) == PathInfo(r.value.datasetId, r.value.fileId, r.value.facets)
    ensures r.Failure? ==> r.error != NoLinesParsed
  {
    var attrs := Fields(line);
    if |attrs| < 12 then Failure(MissingField)
    else
      var path := DecodeSlashes(attrs[6]);
      DecodedHasNoEncodedSlash(attrs[6]);
      var mb := if Contains(attrs[9], "-") then 0 else sizeOf(attrs[9]);
      var project := if Contains(path, CmipMarker) then E3SMInCMIP6 else E3SM;
      match ParseLogTimestamp(attrs[3])
      case Failure(e) => Failure(e)
      case Success(date) =>
        var info := ParseLogPath(path);
        Success(LogLine(line, date, attrs[0], path, info.datasetId, info.fileId,
          attrs[11], attrs[8], attrs[9], mb, project, info.facets))
  }

  /** The requester, status and byte fields of a parsed line are literal
      substrings of the line. */
  lemma ParsedFieldsAreSubstrings(line: string, sizeOf: string -> nat)
    ensures var r := ParseLogLine(line, sizeOf);
      r.Success? ==>
        Contains(line, r.value.requesterIp) && Contains(line, r.value.statusCode) && Contains(line, r.value.bytes)
  {
    FieldsAreSubstrings(line);
  }

  /** Re-assembling a line from whitespace-free fields, followed by a line
      end such as the `\n` that `readline` keeps, and parsing it gives those
      fields back in their positions. */
  lemma ParseLineFromFields(fs: seq<string>, eol: string, sizeOf: string -> nat)
    requires |fs| >= 12
    requires forall i :: 0 <= i < |fs| ==> |fs[i]| > 0 && NoSpace(fs[i])
    requires AllSpace(eol)
    ensures var r := ParseLogLine(Join(fs, " ") + eol, sizeOf);
      r.Success? <==> ParseLogTimestamp(fs[3]).Success?
    ensures var r := ParseLogLine(Join(fs, " ") + eol, sizeOf);
      r.Success? ==>
        && r.value.requesterIp == fs[0] && r.value.statusCode == fs[8]
        && r.value.bytes == fs[9] && r.value.accessType == fs[11]
        && r.value.path == DecodeSlashes(fs[6])
        && ParseLogTimestamp(fs[3]) == Success(r.value.date)
  {
    FieldsOfJoin(fs);
    FieldsIgnoreTrailingSpace(Join(fs, " "), eol);
  }

  /** A line with fewer than twelve fields, whatever line end follows it,
      fails with a missing field. */
  lemma ShortLineFromFields(fs: seq<string>, eol: string, sizeOf: string -> nat)
    requires |fs| < 12
    requires forall i :: 0 <= i < |fs| ==> |fs[i]| > 0 && NoSpace(fs[i])
    requires AllSpace(eol)
    ensures ParseLogLine(Join(fs, " ") + eol, sizeOf) == Failure(MissingField)
  {
    FieldsOfJoin(fs);
    FieldsIgnoreTrailingSpace(Join(fs, " "), eol);
  }

  /** The admitted lines of one file, in file order: each admitted line
      as often as the file holds it, every other line never. */
  function AdmittedLines(lines: seq<string>): (r: seq<string>)
    ensures forall l :: multiset(r)[l] == if IsDownloadRequest(l) then multiset(lines)[l] else 0
    ensures forall l :: l in r <==> l in lines && IsDownloadRequest(l)
    ensures |r| <= |lines|
    ensures (forall i :: 0 <= i < |lines| ==> IsDownloadRequest(lines[i])) ==> r == lines
  {
    if |lines| == 0 then []
    else
      var rest := AdmittedLines(lines[..|lines| - 1]);
      assert lines == lines[..|lines| - 1] + [lines[|lines| - 1]];
      if IsDownloadRequest(lines[|lines| - 1]) then rest + [lines[|lines| - 1]] else rest
  }

  /** Filtering keeps file order: the admitted lines of two consecutive
      stretches of lines are those of the first, then those of the second. */
  lemma {:induction false} AdmittedLinesAppend(a: seq<string>, b: seq<string>)
    ensures AdmittedLines(a + b) == AdmittedLines(a) + AdmittedLines(b)
    decreases |b|
  {
    if |b| == 0 {
      assert a + b == a;
    } else {
      var n := |b| - 1;
      assert (a + b)[..|a + b| - 1] == a + b[..n];
      assert (a + b)[|a + b| - 1] == b[n];
      AdmittedLinesAppend(a, b[..n]);
    }
  }

  /** The lines of every file, file after file. */
  function Concat(files: seq<seq<string>>): seq<string> {
    if |files| == 0 then [] else Concat(files[..|files| - 1]) + files[|files| - 1]
  }

  /** A line is among the lines of the files exactly when one file holds it. */
  lemma {:induction false} InConcat(files: seq<seq<string>>, l: string)
    ensures l in Concat(files) <==> exists k :: 0 <= k < |files| && l in files[k]
    decreases |files|
  {
    if |files| > 0 {
      var n := |files| - 1;
      var front := files[..n];
      InConcat(front, l);
      assert Concat(files) == Concat(front) + files[n];
      assert forall k :: 0 <= k < n ==> front[k] == files[k];
    }
  }

  /** The admitted lines of the files' lines are the admitted lines found
      in some file. */
  lemma AdmittedMembers(files: seq<seq<string>>)
    ensures forall l :: l in AdmittedLines(Concat(files)) <==>
      IsDownloadRequest(l) && exists k :: 0 <= k < |files| && l in files[k]
  {
    forall l ensures l in Concat(files) <==> exists k :: 0 <= k < |files| && l in files[k] {
      InConcat(files, l);
    }
  }

  /** The admitted lines of every file, file after file: the admitted lines
      of all the files' lines read in order, each as often as it occurs. */
  function AdmittedFromFiles(files: seq<seq<string>>): (r: seq<string>)
    ensures r == AdmittedLines(Concat(files))
    ensures forall l :: multiset(r)[l] == if IsDownloadRequest(l) then multiset(Concat(files))[l] else 0
    ensures forall l :: l in r <==> IsDownloadRequest(l) && exists k :: 0 <= k < |files| && l in files[k]
  {
    AdmittedMembers(files);
    if |files| == 0 then []
    else
      var n := |files| - 1;
      AdmittedLinesAppend(Concat(files[..n]), files[n]);
      AdmittedFromFiles(files[..n]) + AdmittedLines(files[n])
  }

  /** The record parser with the byte-count conversion fixed. */
  function LineParser(sizeOf: string -> nat): string -> Result<LogLine, ParseError> {
    (l: string) => ParseLogLine(l, sizeOf)
  }

  /** Line `i` is the first of `lines` that `parse` fails on, and it fails
      with `e`. */
  predicate FailsFirstAt(lines: seq<string>, parse: string -> Result<LogLine, ParseError>, i: int, e: ParseError) {
    && 0 <= i < |lines|
    && parse(lines[i]) == Failure(e)
    && forall j :: 0 <= j < i ==> parse(lines[j]).Success?
  }

  /** Each line parses, under `parse`, to the record in the same position. */
  predicate ParsedInPlace(lines: seq<string>, parse: string -> Result<LogLine, ParseError>, parsed: seq<LogLine>) {
    |parsed| == |lines| && forall i :: 0 <= i < |lines| ==> parse(lines[i]) == Success(parsed[i])
  }

  /** Parse every line in order with `parse`; the first failure aborts
      the whole run. */
  function ParseAll(lines: seq<string>, parse: string -> Result<LogLine, ParseError>): (r: Result<seq<LogLine>, ParseError>)
    ensures r.Success? ==> ParsedInPlace(lines, parse, r.value)
    ensures r.Failure? ==> exists i :: FailsFirstAt(lines, parse, i, r.error)
    decreases |lines|
  {
    if |lines| == 0 then Success([])
    else
      match parse(lines[0])
      case Failure(e) =>
        assert FailsFirstAt(lines, parse, 0, e);
        Failure(e)
      case Success(l) =>
        match ParseAll(lines[1..], parse)
        case Failure(e) =>
          var i :| FailsFirstAt(lines[1..], parse, i, e);
          assert lines[1..][i] == lines[i + 1];
          assert forall j :: 1 <= j < i + 1 ==> lines[1..][j - 1] == lines[j];
          assert FailsFirstAt(lines, parse, i + 1, e);
          Failure(e)
        case Success(ls) =>
          assert forall i :: 1 <= i < |lines| ==> lines[1..][i - 1] == lines[i];
          Success([l] + ls)
  }

  /** `parse_logs` over the lines of the given files: admit, parse in
      order, and fail when a line fails or nothing was parsed. */
  function ParseLogs(files: seq<seq<string>>, sizeOf: string -> nat): (r: Result<seq<LogLine>, ParseError>)
    ensures r.Success? ==> |r.value| > 0
    ensures r.Success? ==> ParsedInPlace(AdmittedFromFiles(files), LineParser(sizeOf), r.value)
    ensures r.Failure? && r.error != NoLinesParsed ==>
      exists i :: FailsFirstAt(AdmittedFromFiles(files), LineParser(sizeOf), i, r.error)
    ensures r == Failure(NoLinesParsed) <==> |AdmittedFromFiles(files)| == 0
  {
    match ParseAll(AdmittedFromFiles(files), LineParser(sizeOf))
    case Failure(e) => Failure(e)
    case Success(parsed) =>
      if |parsed| == 0 then Failure(NoLinesParsed) else Success(parsed)
  }
}

=== FILE: ordering.dfy ===
/** The ordering `sort_values` puts report rows in: Python string order
    (code point by code point, a proper prefix first) and, for a column
    that may be absent, present values before absent ones. */
module Ordering {
  import opened Results

  /** Python's `a < b` on strings. */
  predicate StrLess(a: string, b: string)
    decreases |a|
  {
    if |a| == 0 then |b| > 0
    else if |b| == 0 then false
    else if a[0] == b[0] then StrLess(a[1..], b[1..])
    else a[0] < b[0]
  }

  lemma {:induction false} StrLessIrreflexive(a: string)
    ensures !StrLess(a, a)
    decreases |a|
  {
    if |a| > 0 {
      StrLessIrreflexive(a[1..]);
    }
  }

  lemma {:induction false} StrLessTransitive(a: string, b: string, c: string)
    requires StrLess(a, b) && StrLess(b, c)
    ensures StrLess(a, c)
    decreases |a|
  {
    if |a| > 0 && |b| > 0 && |c| > 0 && a[0] == b[0] && b[0] == c[0] {
      StrLessTransitive(a[1..], b[1..], c[1..]);
    }
  }

  lemma {:induction false} StrLessTotal(a: string, b: string)
    requires a != b
    ensures StrLess(a, b) || StrLess(b, a)
    decreases |a|
  {
    if |a| > 0 && |b| > 0 && a[0] == b[0] {
      assert a == [a[0]] + a[1..] && b == [b[0]] + b[1..];
      StrLessTotal(a[1..], b[1..]);
    }
  }

  /** Order of an optional column: values in string order, absent last
      (`na_position="last"`). */
  predicate OptLess(a: Option<string>, b: Option<string>) {
    match (a, b)
    case (Some(x), Some(y)) => StrLess(x, y)
    case (Some(_), None) => true
    case _ => false
  }

  lemma OptLessIrreflexive(a: Option<string>)
    ensures !OptLess(a, a)
  {
    if a.Some? {
      StrLessIrreflexive(a.value);
    }
  }

  lemma OptLessTransitive(a: Option<string>, b: Option<string>, c: Option<string>)
    requires OptLess(a, b) && OptLess(b, c)
    ensures OptLess(a, c)
  {
    if a.Some? && c.Some? {
      StrLessTransitive(a.value, b.value, c.value);
    }
  }

  lemma OptLessTotal(a: Option<string>, b: Option<string>)
    requires a != b
    ensures OptLess(a, b) || OptLess(b, a)
  {
    if a.Some? && b.Some? {
      StrLessTotal(a.value, b.value);
    }
  }
}

=== FILE: replacing.dfy ===
/** Python's `str.replace(pat, rep)`, and the `%2F` decoding the record
    parser applies to request paths (usage_plotter/parse.py line 138). */
module Replacing {
  import opened Text
  import opened Segments

  /** Python's `s.replace(pat, rep)`: occurrences are found from the left
      and do not overlap; text produced by a replacement is not rescanned. */
  function Replace(s: string, pat: string, rep: string): string
    requires |pat| > 0
    decreases |s|
  {
    if |s| == 0 then ""
    else if IsPrefix(pat, s) then rep + Replace(s[|pat|..], pat, rep)
    else [s[0]] + Replace(s[1..], pat, rep)
  }

  /** A text without the pattern is returned unchanged. */
  lemma {:induction false} ReplaceAbsent(s: string, pat: string, rep: string)
    requires |pat| > 0
    requires !Contains(s, pat)
    ensures Replace(s, pat, rep) == s
    decreases |s|
  {
    if |s| > 0 {
      ReplaceAbsent(s[1..], pat, rep);
      assert [s[0]] + s[1..] == s;
    }
  }

  /** A replacement shorter than the pattern never lengthens the text,
      and strictly shortens it when the pattern occurs. */
  lemma {:induction false} ReplaceShrinks(s: string, pat: string, rep: string)
    requires |rep| < |pat|
    ensures |Replace(s, pat, rep)| <= |s|
    ensures Contains(s, pat) ==> |Replace(s, pat, rep)| < |s|
    decreases |s|
  {
    if |s| > 0 {
      if IsPrefix(pat, s) {
        ReplaceShrinks(s[|pat|..], pat, rep);
      } else {
        ReplaceShrinks(s[1..], pat, rep);
      }
    }
  }

  /** With a shorter replacement, the text is unchanged exactly when the
      pattern does not occur in it. */
  lemma ReplaceIdentityIff(s: string, pat: string, rep: string)
    requires |rep| < |pat|
    ensures Replace(s, pat, rep) == s <==> !Contains(s, pat)
  {
    if Contains(s, pat) {
      ReplaceShrinks(s, pat, rep);
    } else {
      ReplaceAbsent(s, pat, rep);
    }
  }

  /** The encoded path separator the archive uses inside some request paths. */
  const EncodedSlash: string := "%2F"

  /** `path.replace("%2F", "/")`. */
  function DecodeSlashes(s: string): string {
    Replace(s, EncodedSlash, "/")
  }

  /** The first character of the decoded text: a `/` where an encoded
      separator was, the original character otherwise. */
  lemma DecodeHead(s: string)
    requires |s| > 0
    ensures |DecodeSlashes(s)| > 0
    ensures DecodeSlashes(s)[0] == if IsPrefix(EncodedSlash, s) then '/' else s[0]
  {
  }

  /** The decoded path contains no `%2F`: a replacement yields `/`, which
      cannot start or complete a new occurrence. */
  lemma {:induction false} DecodedHasNoEncodedSlash(s: string)
    ensures !Contains(DecodeSlashes(s), EncodedSlash)
    decreases |s|
  {
    var d := DecodeSlashes(s);
    if |s| > 0 {
      if IsPrefix(EncodedSlash, s) {
        DecodedHasNoEncodedSlash(s[3..]);
        assert d == "/" + DecodeSlashes(s[3..]);
        assert d[1..] == DecodeSlashes(s[3..]);
        assert !IsPrefix(EncodedSlash, d) by { assert d[0] == '/'; }
      } else {
        DecodedHasNoEncodedSlash(s[1..]);
        assert d == [s[0]] + DecodeSlashes(s[1..]);
        assert d[1..] == DecodeSlashes(s[1..]);
        CopiedHeadStartsNoMatch(s);
      }
    }
  }

  /** If a copied character starts a `%2F` in the decoded text, that `%2F`
      was already in the input at the same place. */
  lemma CopiedHeadStartsNoMatch(s: string)
    requires |s| > 0
    ensures IsPrefix(EncodedSlash, [s[0]] + DecodeSlashes(s[1..])) ==> IsPrefix(EncodedSlash, s)
  {
    var d := [s[0]] + DecodeSlashes(s[1..]);
    if IsPrefix(EncodedSlash, d) {
      var d1 := DecodeSlashes(s[1..]);
      assert d[..3] == EncodedSlash;
      assert d[..3][0] == '%' && d[..3][1] == '2' && d[..3][2] == 'F';
      assert s[0] == '%' && d1[0] == '2' && d1[1] == 'F';
      DecodeHead(s[1..]);
      assert s[1] == '2' && !IsPrefix(EncodedSlash, s[1..]);
      assert d1 == [s[1]] + DecodeSlashes(s[2..]);
      DecodeHead(s[2..]);
      assert s[2] == 'F';
      assert s[..3] == EncodedSlash;
    }
  }

  /** Decoding is idempotent: a decoded path decodes to itself. */
  lemma DecodeIdempotent(s: string)
    ensures DecodeSlashes(DecodeSlashes(s)) == DecodeSlashes(s)
  {
    DecodedHasNoEncodedSlash(s);
    ReplaceAbsent(DecodeSlashes(s), EncodedSlash, "/");
  }

  /** A text without an encoded separator, followed by one, decodes to its
      own decoding and a `/`: no occurrence starts inside the text, not even
      one that runs into the separator after it. */
  lemma {:induction false} DecodeBeforeSeparator(p: string, r: string)
    requires !Contains(p, EncodedSlash)
    ensures DecodeSlashes(p + EncodedSlash + r) == DecodeSlashes(p) + "/" + DecodeSlashes(r)
    decreases |p|
  {
    var s := p + EncodedSlash + r;
    if |p| == 0 {
      assert s == EncodedSlash + r;
      assert IsPrefix(EncodedSlash, s);
      assert s[|EncodedSlash|..] == r;
    } else {
      assert !IsPrefix(EncodedSlash, p);
      assert !Contains(p[1..], EncodedSlash);
      assert !IsPrefix(EncodedSlash, s) by {
        if |p| >= 3 {
          assert s[..3] == p[..3];
        } else if |p| == 1 {
          assert s[1] == '%';
        } else {
          assert s[2] == '%';
        }
      }
      assert s[1..] == p[1..] + EncodedSlash + r;
      DecodeBeforeSeparator(p[1..], r);
    }
  }

  /** Decoding undoes a join on the encoded separator: parts that hold no
      `%2F` come back joined on `/`. */
  lemma {:induction false} DecodeJoin(parts: seq<string>)
    requires forall i :: 0 <= i < |parts| ==> !Contains(parts[i], EncodedSlash)
    ensures DecodeSlashes(Join(parts, EncodedSlash)) == Join(parts, "/")
    decreases |parts|
  {
    if |parts| == 1 {
      ReplaceAbsent(parts[0], EncodedSlash, "/");
    } else if |parts| >= 2 {
      DecodeBeforeSeparator(parts[0], Join(parts[1..], EncodedSlash));
      ReplaceAbsent(parts[0], EncodedSlash, "/");
      DecodeJoin(parts[1..]);
    }
  }
}

=== FILE: reports.dfy ===
/** The monthly part of `gen_report` (usage_plotter/parse.py lines
    225-244): request counts per (year, month[, facet]) key over all
    requests, size sums over successful requests only, an inner merge of
    the two tables and a sort by key. */
module Reports {
  import opened Results
  import opened Text
  import opened Segments
  import opened Replacing
  import opened Dates
  import opened Facets
  import opened LogLines
  import opened Ordering

  /** The grouping key: calendar year and month, and the value of the
      requested facet (`None` when no facet is requested). */
  datatype MonthKey = MonthKey(year: int, month: Month, facet: Option<string>)

  /** The key a request falls under. */
  function KeyOf(l: LogLine, facet: Option<FacetName>): MonthKey {
    var v := match facet
      case None => None
      case Some(f) => l.facets.Get(f);
    MonthKey(l.CalendarYr(), l.CalendarMonth(), v)
  }

  /** `status_code.str.contains("200|206")`: the status text contains
      `200` or `206` somewhere. */
  predicate IsSuccess(status: string) {
    Contains(status, "200") || Contains(status, "206")
  }

  /** A status is a success exactly when `200` or `206` occurs in it at
      some position. */
  lemma SuccessIff(status: string)
    ensures IsSuccess(status) <==> exists i :: OccursAt(status, "200", i) || OccursAt(status, "206", i)
  {
    ContainsIff(status, "200");
    ContainsIff(status, "206");
  }

  /** A parsed request falls under the year and month of its timestamp
      field and, with a facet, under the value the classifier finds for that
      facet in the dataset id of its decoded path. */
  lemma KeyOfParsed(line: string, sizeOf: string -> nat, facet: Option<FacetName>)
    ensures var r := ParseLogLine(line, sizeOf);
      r.Success? ==>
        var k := KeyOf(r.value, facet);
        var fs := Fields(line);
        var d := ParseLogTimestamp(fs[3]).value;
        && k.year == d.year && k.month == d.month
        && (facet.None? ==> k.facet.None?)
        && (facet.Some? ==>
              k.facet == LastMatch(Vocabulary(facet.value), Split(DatasetId(DecodeSlashes(fs[6])), '.')))
  {
  }

  /** Sort order of keys: year, then month, then facet value. */
  predicate KeyLess(a: MonthKey, b: MonthKey) {
    || a.year < b.year
    || (a.year == b.year && a.month < b.month)
    || (a.year == b.year && a.month == b.month && OptLess(a.facet, b.facet))
  }

  lemma KeyLessIrreflexive(a: MonthKey)
    ensures !KeyLess(a, a)
  {
    OptLessIrreflexive(a.facet);
  }

  lemma KeyLessTransitive(a: MonthKey, b: MonthKey, c: MonthKey)
    requires KeyLess(a, b) && KeyLess(b, c)
    ensures KeyLess(a, c)
  {
    if a.year == b.year == c.year && a.month == b.month == c.month {
      OptLessTransitive(a.facet, b.facet, c.facet);
    }
  }

  lemma KeyLessTotal(a: MonthKey, b: MonthKey)
    requires a != b
    ensures KeyLess(a, b) || KeyLess(b, a)
  {
    if a.year == b.year && a.month == b.month {
      OptLessTotal(a.facet, b.facet);
    }
  }

  predicate StrictlySorted(ks: seq<MonthKey>) {
    forall i, j :: 0 <= i < j < |ks| ==> KeyLess(ks[i], ks[j])
  }

  /** A strictly sorted sequence holds no key twice. */
  lemma SortedIsDistinct(ks: seq<MonthKey>)
    requires StrictlySorted(ks)
    ensures forall i, j :: 0 <= i < j < |ks| ==> ks[i] != ks[j]
  {
    forall i, j | 0 <= i < j < |ks| ensures ks[i] != ks[j] {
      KeyLessIrreflexive(ks[i]);
    }
  }

  /** Insert a key into a strictly sorted sequence of keys, unless present. */
  function Insert(k: MonthKey, ks: seq<MonthKey>): (r: seq<MonthKey>)
    requires StrictlySorted(ks)
    ensures StrictlySorted(r)
    ensures forall x :: x in r <==> x == k || x in ks
    decreases |ks|
  {
    if |ks| == 0 then [k]
    else if k == ks[0] then ks
    else if KeyLess(k, ks[0]) then
      assert StrictlySorted([k] + ks) by {
        forall j | 0 <= j < |ks| ensures KeyLess(k, ks[j]) {
          if j > 0 {
            KeyLessTransitive(k, ks[0], ks[j]);
          }
        }
      }
      [k] + ks
    else
      var rest := Insert(k, ks[1..]);
      KeyLessTotal(k, ks[0]);
      assert StrictlySorted([ks[0]] + rest) by {
        forall x | x in rest ensures KeyLess(ks[0], x) {
          if x != k {
            var j :| 0 <= j < |ks[1..]| && ks[1..][j] == x;
            assert ks[j + 1] == x;
          }
        }
      }
      [ks[0]] + rest
  }

  /** The keys of the requests, in the order `sort_values` gives them. */
  function SortedKeys(ls: seq<LogLine>, facet: Option<FacetName>): (ks: seq<MonthKey>)
    ensures StrictlySorted(ks)
    ensures forall k :: k in ks <==> exists i :: 0 <= i < |ls| && KeyOf(ls[i], facet) == k
  {
    if |ls| == 0 then []
    else
      var n := |ls| - 1;
      var r := Insert(KeyOf(ls[n], facet), SortedKeys(ls[..n], facet));
      assert forall k :: k in r <==> exists i :: 0 <= i < |ls| && KeyOf(ls[i], facet) == k by {
        forall k ensures k in r <==> exists i :: 0 <= i < |ls| && KeyOf(ls[i], facet) == k {
          if exists i :: 0 <= i < |ls| && KeyOf(ls[i], facet) == k {
            var i :| 0 <= i < |ls| && KeyOf(ls[i], facet) == k;
            if i < n {
              assert ls[..n][i] == ls[i];
            }
          }
          if exists i :: 0 <= i < n && KeyOf(ls[..n][i], facet) == k {
            var i :| 0 <= i < n && KeyOf(ls[..n][i], facet) == k;
            assert ls[i] == ls[..n][i];
          }
        }
      }
      r
  }

  /** `value_counts`: how many requests fall under `k`, whatever their status. */
  function RequestCount(ls: seq<LogLine>, facet: Option<FacetName>, k: MonthKey): nat {
    if |ls| == 0 then 0
    else
      var n := |ls| - 1;
      RequestCount(ls[..n], facet, k) + (if KeyOf(ls[n], facet) == k then 1 else 0)
  }

  /** `groupby(...).agg({"mb": "sum"})` over the successful requests: the
      sizes of the successful requests that fall under `k`. */
  function SizeSum(ls: seq<LogLine>, facet: Option<FacetName>, k: MonthKey): nat {
    if |ls| == 0 then 0
    else
      var n := |ls| - 1;
      SizeSum(ls[..n], facet, k) + (if KeyOf(ls[n], facet) == k && IsSuccess(ls[n].statusCode) then ls[n].mb else 0)
  }

  /** The keys of a sequence of requests, one per request. */
  function KeyList(ls: seq<LogLine>, facet: Option<FacetName>): (ks: seq<MonthKey>)
    ensures |ks| == |ls|
    ensures forall i :: 0 <= i < |ls| ==> ks[i] == KeyOf(ls[i], facet)
  {
    seq(|ls|, i requires 0 <= i < |ls| => KeyOf(ls[i], facet))
  }

  /** The request count of a key is its multiplicity among the keys of
      all requests. */
  lemma {:induction false} RequestCountIsMultiplicity(ls: seq<LogLine>, facet: Option<FacetName>, k: MonthKey)
    ensures RequestCount(ls, facet, k) == multiset(KeyList(ls, facet))[k]
  {
    if |ls| > 0 {
      var n := |ls| - 1;
      RequestCountIsMultiplicity(ls[..n], facet, k);
      assert KeyList(ls, facet) == KeyList(ls[..n], facet) + [KeyOf(ls[n], facet)];
    }
  }

  /** The requests whose status is a success, in order, each as often as
      it occurs. */
  function Successful(ls: seq<LogLine>): (r: seq<LogLine>)
    ensures forall l :: l in r <==> l in ls && IsSuccess(l.statusCode)
    ensures (forall i :: 0 <= i < |ls| ==> IsSuccess(ls[i].statusCode)) ==> r == ls
  {
    if |ls| == 0 then []
    else
      var n := |ls| - 1;
      assert ls == ls[..n] + [ls[n]];
      Successful(ls[..n]) + (if IsSuccess(ls[n].statusCode) then [ls[n]] else [])
  }

  /** Whether a request takes part in a report: always without a facet;
      with a facet, when its facet value is present or `keepAbsent` keeps
      requests with an absent value as their own group. */
  predicate Takes(l: LogLine, facet: Option<FacetName>, keepAbsent: bool) {
    facet.None? || keepAbsent || KeyOf(l, facet).facet.Some?
  }

  /** The requests that take part in a report: all of them without a
      facet; with a facet, those whose facet value is present, unless
      `keepAbsent` keeps requests with an absent value as their own group. */
  function Considered(ls: seq<LogLine>, facet: Option<FacetName>, keepAbsent: bool): (r: seq<LogLine>)
    ensures forall l :: l in r ==> l in ls && Takes(l, facet, keepAbsent)
    ensures forall i :: 0 <= i < |ls| && Takes(ls[i], facet, keepAbsent) ==> ls[i] in r
    ensures facet.None? || keepAbsent ==> r == ls
  {
    if |ls| == 0 then []
    else
      var n := |ls| - 1;
      assert ls == ls[..n] + [ls[n]];
      var keep := Takes(ls[n], facet, keepAbsent);
      Considered(ls[..n], facet, keepAbsent) + (if keep then [ls[n]] else [])
  }

  /** One more request at the end is selected after the earlier ones
      exactly when it is a success. */
  lemma SuccessfulSnoc(xs: seq<LogLine>, x: LogLine)
    ensures Successful(xs + [x]) == Successful(xs) + (if IsSuccess(x.statusCode) then [x] else [])
  {
    assert (xs + [x])[..|xs|] == xs;
  }

  /** Selecting successes keeps order: the successes of two consecutive
      stretches are those of the first, then those of the second. */
  lemma {:induction false} SuccessfulAppend(a: seq<LogLine>, b: seq<LogLine>)
    ensures Successful(a + b) == Successful(a) + Successful(b)
    decreases |b|
  {
    if |b| == 0 {
      assert a + b == a;
    } else {
      var n := |b| - 1;
      var front, x := b[..n], b[n];
      var last := if IsSuccess(x.statusCode) then [x] else [];
      calc {
        Successful(a + b);
      == { assert a + b == (a + front) + [x]; SuccessfulSnoc(a + front, x); }
        Successful(a + front) + last;
      == { SuccessfulAppend(a, front); }
        Successful(a) + Successful(front) + last;
      == { assert b == front + [x]; SuccessfulSnoc(front, x); }
        Successful(a) + Successful(b);
      }
    }
  }

  /** One more request at the end is considered after the earlier ones
      exactly when it takes part in the report. */
  lemma ConsideredSnoc(xs: seq<LogLine>, x: LogLine, facet: Option<FacetName>, keepAbsent: bool)
    ensures Considered(xs + [x], facet, keepAbsent) ==
      Considered(xs, facet, keepAbsent) + (if Takes(x, facet, keepAbsent) then [x] else [])
  {
    assert (xs + [x])[..|xs|] == xs;
  }

  /** Selecting the considered requests keeps order in the same way. */
  lemma {:induction false} ConsideredAppend(a: seq<LogLine>, b: seq<LogLine>, facet: Option<FacetName>, keepAbsent: bool)
    ensures Considered(a + b, facet, keepAbsent) == Considered(a, facet, keepAbsent) + Considered(b, facet, keepAbsent)
    decreases |b|
  {
    if |b| == 0 {
      assert a + b == a;
    } else {
      ConsideredAppend(a, b[..|b| - 1], facet, keepAbsent);
      ConsideredAppendStep(a, b, facet, keepAbsent);
    }
  }

  /** The appending step: the second stretch grows by its last request. */
  lemma ConsideredAppendStep(a: seq<LogLine>, b: seq<LogLine>, facet: Option<FacetName>, keepAbsent: bool)
    requires |b| > 0
    requires var front := b[..|b| - 1];
      Considered(a + front, facet, keepAbsent) == Considered(a, facet, keepAbsent) + Considered(front, facet, keepAbsent)
    ensures Considered(a + b, facet, keepAbsent) == Considered(a, facet, keepAbsent) + Considered(b, facet, keepAbsent)
  {
    if !(facet.None? || keepAbsent) {
      var front, x := b[..|b| - 1], b[|b| - 1];
      var last := if Takes(x, facet, keepAbsent) then [x] else [];
      calc {
        Considered(a + b, facet, keepAbsent);
      == { assert a + b == (a + front) + [x]; ConsideredSnoc(a + front, x, facet, keepAbsent); }
        Considered(a + front, facet, keepAbsent) + last;
      ==
        Considered(a, facet, keepAbsent) + Considered(front, facet, keepAbsent) + last;
      == { assert b == front + [x]; ConsideredSnoc(front, x, facet, keepAbsent); }
        Considered(a, facet, keepAbsent) + Considered(b, facet, keepAbsent);
      }
    }
  }

  /** Each successful request is selected as often as it occurs, every
      other request never. */
  lemma {:induction false} SuccessfulCounts(ls: seq<LogLine>)
    ensures forall l :: multiset(Successful(ls))[l] == if IsSuccess(l.statusCode) then multiset(ls)[l] else 0
  {
    if |ls| > 0 {
      var n := |ls| - 1;
      SuccessfulCounts(ls[..n]);
      assert ls == ls[..n] + [ls[n]];
      SuccessfulCountsSnoc(ls[..n], ls[n]);
    }
  }

  /** The counting step: one more request at the end. */
  lemma SuccessfulCountsSnoc(front: seq<LogLine>, x: LogLine)
    requires forall l :: multiset(Successful(front))[l] == if IsSuccess(l.statusCode) then multiset(front)[l] else 0
    ensures forall l :: multiset(Successful(front + [x]))[l] == (if IsSuccess(l.statusCode) then multiset(front + [x])[l] else 0)
  {
    var last := if IsSuccess(x.statusCode) then [x] else [];
    SuccessfulSnoc(front, x);
    assert multiset(Successful(front + [x])) == multiset(Successful(front)) + multiset(last);
  }

  /** Each request that takes part in the report is kept as often as it
      occurs, every other request never. */
  lemma {:induction false} ConsideredCounts(ls: seq<LogLine>, facet: Option<FacetName>, keepAbsent: bool)
    ensures forall l :: multiset(Considered(ls, facet, keepAbsent))[l] == (if Takes(l, facet, keepAbsent) then multiset(ls)[l] else 0)
  {
    if |ls| > 0 {
      var n := |ls| - 1;
      ConsideredCounts(ls[..n], facet, keepAbsent);
      assert ls == ls[..n] + [ls[n]];
      ConsideredCountsSnoc(ls[..n], ls[n], facet, keepAbsent);
    }
  }

  /** The counting step: one more request at the end. */
  lemma ConsideredCountsSnoc(front: seq<LogLine>, x: LogLine, facet: Option<FacetName>, keepAbsent: bool)
    requires forall l :: multiset(Considered(front, facet, keepAbsent))[l] == (if Takes(l, facet, keepAbsent) then multiset(front)[l] else 0)
    ensures forall l :: multiset(Considered(front + [x], facet, keepAbsent))[l] == (if Takes(l, facet, keepAbsent) then multiset(front + [x])[l] else 0)
  {
    var last := if Takes(x, facet, keepAbsent) then [x] else [];
    ConsideredSnoc(front, x, facet, keepAbsent);
    assert multiset(Considered(front + [x], facet, keepAbsent)) == multiset(Considered(front, facet, keepAbsent)) + multiset(last);
  }

  /** One row of the monthly report. */
  datatype MonthRow = MonthRow(key: MonthKey, requests: nat, mb: nat)

  function RowKeys(rows: seq<MonthRow>): (ks: seq<MonthKey>)
    ensures |ks| == |rows|
    ensures forall i :: 0 <= i < |rows| ==> ks[i] == rows[i].key
  {
    seq(|rows|, i requires 0 <= i < |rows| => rows[i].key)
  }

  /** A key is among the sorted keys of the successful requests exactly
      when some successful request falls under it. */
  lemma SuccessKeys(es: seq<LogLine>, facet: Option<FacetName>)
    ensures forall k :: k in SortedKeys(Successful(es), facet) <==>
      exists l :: l in es && IsSuccess(l.statusCode) && KeyOf(l, facet) == k
  {
    var ss := Successful(es);
    var ks := SortedKeys(ss, facet);
    forall k ensures k in ks <==> exists l :: l in es && IsSuccess(l.statusCode) && KeyOf(l, facet) == k {
      if k in ks {
        var i :| 0 <= i < |ss| && KeyOf(ss[i], facet) == k;
        assert ss[i] in ss;
      }
      if exists l :: l in es && IsSuccess(l.statusCode) && KeyOf(l, facet) == k {
        var l :| l in es && IsSuccess(l.statusCode) && KeyOf(l, facet) == k;
        var i :| 0 <= i < |ss| && ss[i] == l;
      }
    }
  }

  /** A key some request falls under is counted at least once. */
  lemma CountedKeyIsPositive(es: seq<LogLine>, facet: Option<FacetName>, l: LogLine)
    requires l in es
    ensures multiset(KeyList(es, facet))[KeyOf(l, facet)] >= 1
  {
    var j :| 0 <= j < |es| && es[j] == l;
    assert KeyList(es, facet)[j] == KeyOf(l, facet);
  }

  /** The row of one key. */
  function RowOf(es: seq<LogLine>, facet: Option<FacetName>, k: MonthKey): (row: MonthRow)
    ensures row.key == k
    ensures row.requests == multiset(KeyList(es, facet))[k]
  {
    RequestCountIsMultiplicity(es, facet, k);
    MonthRow(k, RequestCount(es, facet, k), SizeSum(es, facet, k))
  }

  /** The monthly report: one row per key that has at least one
      successful request (the inner merge drops the other keys), sorted by
      key, with the count of all requests and the size of the successful
      ones under that key. */
  function MonthlyReport(ls: seq<LogLine>, facet: Option<FacetName>, keepAbsent: bool): (rows: seq<MonthRow>)
    ensures StrictlySorted(RowKeys(rows))
    ensures forall k :: k in RowKeys(rows) <==>
      exists l :: l in Considered(ls, facet, keepAbsent) && IsSuccess(l.statusCode) && KeyOf(l, facet) == k
    ensures forall i :: 0 <= i < |rows| ==>
      rows[i].requests == multiset(KeyList(Considered(ls, facet, keepAbsent), facet))[rows[i].key]
    ensures forall i :: 0 <= i < |rows| ==> rows[i].requests >= 1
    ensures forall i :: 0 <= i < |rows| ==>
      rows[i].mb == SizeSum(Considered(ls, facet, keepAbsent), facet, rows[i].key)
  {
    var es := Considered(ls, facet, keepAbsent);
    var ks := SortedKeys(Successful(es), facet);
    var rows := seq(|ks|, i requires 0 <= i < |ks| => RowOf(es, facet, ks[i]));
    assert RowKeys(rows) == ks;
    SuccessKeys(es, facet);
    assert forall i :: 0 <= i < |rows| ==> rows[i].requests >= 1 by {
      forall i | 0 <= i < |rows| ensures rows[i].requests >= 1 {
        assert ks[i] in ks;
        var l :| l in es && IsSuccess(l.statusCode) && KeyOf(l, facet) == ks[i];
        CountedKeyIsPositive(es, facet, l);
      }
    }
    rows
  }

  /** A request whose status is not a success adds one to the count of
      its key and nothing to any size sum. */
  lemma FailedRequestCountsButAddsNoSize(ls: seq<LogLine>, facet: Option<FacetName>, e: LogLine, k: MonthKey)
    requires !IsSuccess(e.statusCode)
    ensures RequestCount(ls + [e], facet, KeyOf(e, facet)) == RequestCount(ls, facet, KeyOf(e, facet)) + 1
    ensures SizeSum(ls + [e], facet, k) == SizeSum(ls, facet, k)
  {
    assert (ls + [e])[..|ls|] == ls;
  }

  /** Sum of the request counts of report rows. */
  function TotalRequests(rows: seq<MonthRow>): nat {
    if |rows| == 0 then 0 else rows[0].requests + TotalRequests(rows[1..])
  }

  /** Sum of the sizes of report rows. */
  function TotalMb(rows: seq<MonthRow>): nat {
    if |rows| == 0 then 0 else rows[0].mb + TotalMb(rows[1..])
  }

  /** How many requests fall under one of the keys `ks`. */
  function CountKeysIn(ls: seq<LogLine>, facet: Option<FacetName>, ks: seq<MonthKey>): nat {
    if |ls| == 0 then 0
    else
      var n := |ls| - 1;
      CountKeysIn(ls[..n], facet, ks) + (if KeyOf(ls[n], facet) in ks then 1 else 0)
  }

  /** Total size of the successful requests that fall under one of `ks`. */
  function SizeInKeys(ls: seq<LogLine>, facet: Option<FacetName>, ks: seq<MonthKey>): nat {
    if |ls| == 0 then 0
    else
      var n := |ls| - 1;
      SizeInKeys(ls[..n], facet, ks) + (if KeyOf(ls[n], facet) in ks && IsSuccess(ls[n].statusCode) then ls[n].mb else 0)
  }

  /** Total size of all successful requests. */
  function SuccessfulMb(ls: seq<LogLine>): nat {
    if |ls| == 0 then 0
    else
      var n := |ls| - 1;
      SuccessfulMb(ls[..n]) + (if IsSuccess(ls[n].statusCode) then ls[n].mb else 0)
  }

  lemma {:induction false} CountKeysInCons(ls: seq<LogLine>, facet: Option<FacetName>, k: MonthKey, ks: seq<MonthKey>)
    requires k !in ks
    ensures CountKeysIn(ls, facet, [k] + ks) == RequestCount(ls, facet, k) + CountKeysIn(ls, facet, ks)
  {
    if |ls| > 0 {
      CountKeysInCons(ls[..|ls| - 1], facet, k, ks);
    }
  }

  lemma {:induction false} SizeInKeysCons(ls: seq<LogLine>, facet: Option<FacetName>, k: MonthKey, ks: seq<MonthKey>)
    requires k !in ks
    ensures SizeInKeys(ls, facet, [k] + ks) == SizeSum(ls, facet, k) + SizeInKeys(ls, facet, ks)
  {
    if |ls| > 0 {
      SizeInKeysCons(ls[..|ls| - 1], facet, k, ks);
    }
  }

  /** Rows with distinct keys, each carrying the request count and size
      sum of its key, total the requests and sizes under those keys. */
  lemma {:induction false} RowTotals(ls: seq<LogLine>, facet: Option<FacetName>, rows: seq<MonthRow>)
    requires forall i, j :: 0 <= i < j < |rows| ==> rows[i].key != rows[j].key
    requires forall i :: 0 <= i < |rows| ==> rows[i].requests == RequestCount(ls, facet, rows[i].key)
    requires forall i :: 0 <= i < |rows| ==> rows[i].mb == SizeSum(ls, facet, rows[i].key)
    ensures TotalRequests(rows) == CountKeysIn(ls, facet, RowKeys(rows))
    ensures TotalMb(rows) == SizeInKeys(ls, facet, RowKeys(rows))
  {
    if |rows| == 0 {
      EmptyKeys(ls, facet);
    } else {
      RowTotals(ls, facet, rows[1..]);
      assert RowKeys(rows) == [rows[0].key] + RowKeys(rows[1..]);
      assert rows[0].key !in RowKeys(rows[1..]);
      CountKeysInCons(ls, facet, rows[0].key, RowKeys(rows[1..]));
      SizeInKeysCons(ls, facet, rows[0].key, RowKeys(rows[1..]));
    }
  }

  lemma {:induction false} EmptyKeys(ls: seq<LogLine>, facet: Option<FacetName>)
    ensures CountKeysIn(ls, facet, []) == 0 && SizeInKeys(ls, facet, []) == 0
  {
    if |ls| > 0 {
      EmptyKeys(ls[..|ls| - 1], facet);
    }
  }

  /** When every successful request falls under one of `ks`, the size
      under `ks` is the size of all successful requests. */
  lemma {:induction false} SizeInKeysCoversSuccesses(ls: seq<LogLine>, facet: Option<FacetName>, ks: seq<MonthKey>)
    requires forall l :: l in ls && IsSuccess(l.statusCode) ==> KeyOf(l, facet) in ks
    ensures SizeInKeys(ls, facet, ks) == SuccessfulMb(ls)
  {
    if |ls| > 0 {
      var n := |ls| - 1;
      assert forall l :: l in ls[..n] ==> l in ls;
      SizeInKeysCoversSuccesses(ls[..n], facet, ks);
      assert ls[n] in ls;
    }
  }

  /** The size summed under one key is part of the size of all successful
      requests: all of it when every request falls under the key, none of
      it when no request does. */
  lemma {:induction false} SizeSumBounds(ls: seq<LogLine>, facet: Option<FacetName>, k: MonthKey)
    ensures SizeSum(ls, facet, k) <= SuccessfulMb(ls)
    ensures (forall i :: 0 <= i < |ls| ==> KeyOf(ls[i], facet) == k) ==> SizeSum(ls, facet, k) == SuccessfulMb(ls)
    ensures (forall i :: 0 <= i < |ls| ==> KeyOf(ls[i], facet) != k) ==> SizeSum(ls, facet, k) == 0
  {
    if |ls| > 0 {
      var n := |ls| - 1;
      SizeSumBounds(ls[..n], facet, k);
    }
  }

  /** Among the requests that take part in the grouping, the report's
      requests total those whose key has a successful request (the others
      are lost in the inner merge), and its sizes total the sizes of the
      successful ones. */
  lemma MonthlyTotals(ls: seq<LogLine>, facet: Option<FacetName>, keepAbsent: bool)
    ensures var es := Considered(ls, facet, keepAbsent);
      var rows := MonthlyReport(ls, facet, keepAbsent);
      TotalRequests(rows) == CountKeysIn(es, facet, RowKeys(rows))
      && TotalMb(rows) == SuccessfulMb(es)
  {
    var es := Considered(ls, facet, keepAbsent);
    var rows := MonthlyReport(ls, facet, keepAbsent);
    var ks := RowKeys(rows);
    SortedIsDistinct(ks);
    forall i | 0 <= i < |rows| ensures rows[i].requests == RequestCount(es, facet, rows[i].key) {
      RequestCountIsMultiplicity(es, facet, rows[i].key);
    }
    RowTotals(es, facet, rows);
    SizeInKeysCoversSuccesses(es, facet, ks);
  }

  /** When every key has a successful request, no request is lost: the
      report's requests total the number of requests considered. */
  lemma {:induction false} NoRequestLostWhenEveryGroupSucceeds(ls: seq<LogLine>, facet: Option<FacetName>, ks: seq<MonthKey>)
    requires forall l :: l in ls ==> KeyOf(l, facet) in ks
    ensures CountKeysIn(ls, facet, ks) == |ls|
  {
    if |ls| > 0 {
      var n := |ls| - 1;
      assert forall l :: l in ls[..n] ==> l in ls;
      NoRequestLostWhenEveryGroupSucceeds(ls[..n], facet, ks);
      assert ls[n] in ls;
    }
  }
}

=== FILE: results.dfy ===
/** Wrappers used throughout the model: `Option` stands for Python's
    `Optional[...]` (a value or `None`), `Result` for a call that either
    returns a value or raises an exception. */
module Results {

  /** A value that may be absent (Python's `None`). */
  datatype Option<+T> = None | Some(value: T)

  /** Either the value a call returns or the exception it raises. */
  datatype Result<+T, +E> = Success(value: T) | Failure(error: E)
}

=== FILE: segments.dfy ===
/** Splitting and joining strings the way Python's `str.split(sep)`,
    `str.split()` and `sep.join(parts)` do. */
module Segments {
  import opened Text

  /** Python's `s.split(sep)` for a one-character separator: every
      separator ends a segment, so `n` separators give `n + 1` segments
      (`"".split("/") == [""]`). */
  function Split(s: string, sep: char): (parts: seq<string>)
    ensures |parts| >= 1
    ensures forall i :: 0 <= i < |parts| ==> sep !in parts[i]
    decreases |s|
  {
    if |s| == 0 then [""]
    else
      var rest := Split(s[1..], sep);
      if s[0] == sep then [""] + rest
      else [[s[0]] + rest[0]] + rest[1..]
  }

  /** Python's `sep.join(parts)`. */
  function Join(parts: seq<string>, sep: string): string
    decreases |parts|
  {
    if |parts| == 0 then ""
    else if |parts| == 1 then parts[0]
    else parts[0] + sep + Join(parts[1..], sep)
  }

  /** A character found in neither the parts nor the separator is not in
      their join. */
  lemma {:induction false} JoinAvoids(parts: seq<string>, sep: string, c: char)
    requires c !in sep
    requires forall i :: 0 <= i < |parts| ==> c !in parts[i]
    ensures c !in Join(parts, sep)
    decreases |parts|
  {
    if |parts| >= 2 {
      JoinAvoids(parts[1..], sep, c);
    }
  }

  /** Joining is associative with a prefix on the first part. */
  lemma JoinConsHead(x: string, parts: seq<string>, sep: string)
    requires |parts| >= 1
    ensures Join([x + parts[0]] + parts[1..], sep) == x + Join(parts, sep)
  {
    var ps := [x + parts[0]] + parts[1..];
    assert ps[1..] == parts[1..];
  }

  /** Splitting then re-joining with the same separator restores the text. */
  lemma {:induction false} JoinSplit(s: string, sep: char)
    ensures Join(Split(s, sep), [sep]) == s
    decreases |s|
  {
    if |s| > 0 {
      var rest := Split(s[1..], sep);
      JoinSplit(s[1..], sep);
      if s[0] == sep {
        assert ([""] + rest)[1..] == rest;
        assert Join([""] + rest, [sep]) == "" + [sep] + Join(rest, [sep]);
        assert s == [s[0]] + s[1..];
      } else {
        JoinConsHead([s[0]], rest, [sep]);
        assert s == [s[0]] + s[1..];
      }
    }
  }

  /** Splitting a text that starts with a separator-free part and a separator. */
  lemma {:induction false} SplitAfterPart(p: string, sep: char, r: string)
    requires sep !in p
    ensures Split(p + [sep] + r, sep) == [p] + Split(r, sep)
    decreases |p|
  {
    if |p| == 0 {
      assert p + [sep] + r == [sep] + r;
      assert ([sep] + r)[1..] == r;
    } else {
      var s := p + [sep] + r;
      assert s[1..] == p[1..] + [sep] + r;
      SplitAfterPart(p[1..], sep, r);
      assert [p[0]] + p[1..] == p;
    }
  }

  /** A separator-free text is a single segment. */
  lemma {:induction false} SplitNoSep(p: string, sep: char)
    requires sep !in p
    ensures Split(p, sep) == [p]
    decreases |p|
  {
    if |p| > 0 {
      SplitNoSep(p[1..], sep);
      assert [p[0]] + p[1..] == p;
    }
  }

  /** Joining separator-free parts then splitting gives the parts back. */
  lemma {:induction false} SplitJoin(parts: seq<string>, sep: char)
    requires |parts| >= 1
    requires forall i :: 0 <= i < |parts| ==> sep !in parts[i]
    ensures Split(Join(parts, [sep]), sep) == parts
    decreases |parts|
  {
    if |parts| == 1 {
      SplitNoSep(parts[0], sep);
    } else {
      SplitJoin(parts[1..], sep);
      SplitAfterPart(parts[0], sep, Join(parts[1..], [sep]));
      assert [parts[0]] + parts[1..] == parts;
    }
  }

  /** Appending a part to a non-empty list of parts. */
  lemma {:induction false} JoinSnoc(parts: seq<string>, p: string, sep: string)
    requires |parts| >= 1
    ensures Join(parts + [p], sep) == Join(parts, sep) + sep + p
    decreases |parts|
  {
    if |parts| > 1 {
      assert (parts + [p])[1..] == parts[1..] + [p];
      JoinSnoc(parts[1..], p, sep);
    }
  }

  /** The last segment of `s` split on `sep` is the text after the last
      separator: a suffix of `s`, either all of `s` or preceded by `sep`. */
  lemma LastSegmentIsSuffix(s: string, sep: char)
    ensures var parts := Split(s, sep);
      var last := parts[|parts| - 1];
      |last| <= |s| && s[|s| - |last|..] == last
      && (|last| == |s| || s[|s| - |last| - 1] == sep)
  {
    var parts := Split(s, sep);
    var n := |parts|;
    JoinSplit(s, sep);
    if n > 1 {
      assert parts == parts[..n - 1] + [parts[n - 1]];
      JoinSnoc(parts[..n - 1], parts[n - 1], [sep]);
      var front := Join(parts[..n - 1], [sep]);
      assert s == front + [sep] + parts[n - 1];
      assert s[|s| - |parts[n - 1]|..] == parts[n - 1];
    }
  }

  /** A text holding the separator splits into at least two segments. */
  lemma {:induction false} SplitHasTwoParts(s: string, sep: char)
    requires sep in s
    ensures |Split(s, sep)| >= 2
    decreases |s|
  {
    if s[0] != sep {
      SplitHasTwoParts(s[1..], sep);
    }
  }

  /** The last segment of `u + t` is the last segment of `t` when `t`
      holds a separator. */
  lemma {:induction false} LastSegmentOfSuffix(u: string, t: string, sep: char)
    requires sep in t
    ensures var a := Split(u + t, sep); var b := Split(t, sep);
      a[|a| - 1] == b[|b| - 1]
    decreases |u|
  {
    if |u| > 0 {
      assert (u + t)[1..] == u[1..] + t;
      LastSegmentOfSuffix(u[1..], t, sep);
      SplitHasTwoParts(u[1..] + t, sep);
    } else {
      assert u + t == t;
    }
  }

  /** The characters Python's `str.split()` treats as whitespace
      (`str.isspace`). */
  predicate IsSpace(c: char) {
    || '\U{0009}' <= c <= '\U{000D}'
    || '\U{001C}' <= c <= '\U{0020}'
    || c == '\U{0085}' || c == '\U{00A0}' || c == '\U{1680}'
    || '\U{2000}' <= c <= '\U{200A}'
    || c == '\U{2028}' || c == '\U{2029}' || c == '\U{202F}' || c == '\U{205F}'
    || c == '\U{3000}'
  }

  /** No character of `w` is whitespace. */
  predicate NoSpace(w: string) {
    forall i :: 0 <= i < |w| ==> !IsSpace(w[i])
  }

  /** The longest whitespace-free prefix of `s`. */
  function Word(s: string): (w: string)
    ensures |w| <= |s| && s[..|w|] == w
    ensures NoSpace(w)
    ensures |w| == |s| || IsSpace(s[|w|])
    decreases |s|
  {
    if |s| == 0 || IsSpace(s[0]) then ""
    else [s[0]] + Word(s[1..])
  }

  /** Python's `s.split()`: the maximal runs of non-whitespace characters,
      in order; leading, trailing and repeated whitespace yields nothing. */
  function Fields(s: string): (fs: seq<string>)
    ensures forall i :: 0 <= i < |fs| ==> |fs[i]| > 0 && NoSpace(fs[i])
    decreases |s|
  {
    if |s| == 0 then []
    else if IsSpace(s[0]) then Fields(s[1..])
    else
      var w := Word(s);
      [w] + Fields(s[|w|..])
  }

  /** `Word` stops exactly at the end of a whitespace-free prefix. */
  lemma {:induction false} WordOfPrefix(w: string, rest: string)
    requires NoSpace(w)
    requires |rest| == 0 || IsSpace(rest[0])
    ensures Word(w + rest) == w
    decreases |w|
  {
    if |w| > 0 {
      assert (w + rest)[1..] == w[1..] + rest;
      WordOfPrefix(w[1..], rest);
      assert [w[0]] + w[1..] == w;
    } else {
      assert w + rest == rest;
    }
  }

  /** Every character of `w` is whitespace. */
  predicate AllSpace(w: string) {
    forall i :: 0 <= i < |w| ==> IsSpace(w[i])
  }

  /** Leading whitespace adds no field and changes none. */
  lemma {:induction false} FieldsIgnoreLeadingSpace(w: string, s: string)
    requires AllSpace(w)
    ensures Fields(w + s) == Fields(s)
    decreases |w|
  {
    if |w| > 0 {
      assert (w + s)[1..] == w[1..] + s;
      FieldsIgnoreLeadingSpace(w[1..], s);
    } else {
      assert w + s == s;
    }
  }

  /** Whitespace-free, non-empty fields joined with any non-empty run of
      whitespace split back into exactly those fields. */
  lemma {:induction false} FieldsOfJoinSpaces(fs: seq<string>, sep: string)
    requires forall i :: 0 <= i < |fs| ==> |fs[i]| > 0 && NoSpace(fs[i])
    requires |sep| > 0 && AllSpace(sep)
    ensures Fields(Join(fs, sep)) == fs
    decreases |fs|
  {
    if |fs| == 1 {
      WordOfPrefix(fs[0], "");
      assert fs[0] + "" == fs[0];
      assert fs[0][|fs[0]|..] == "";
    } else if |fs| > 1 {
      var tail := Join(fs[1..], sep);
      var s := fs[0] + (sep + tail);
      assert Join(fs, sep) == s;
      WordOfPrefix(fs[0], sep + tail);
      assert s[|fs[0]|..] == sep + tail;
      FieldsIgnoreLeadingSpace(sep, tail);
      FieldsOfJoinSpaces(fs[1..], sep);
      assert [fs[0]] + fs[1..] == fs;
    }
  }

  /** In particular, fields joined with single spaces, as a log line is
      written, split back into themselves. */
  lemma FieldsOfJoin(fs: seq<string>)
    requires forall i :: 0 <= i < |fs| ==> |fs[i]| > 0 && NoSpace(fs[i])
    ensures Fields(Join(fs, " ")) == fs
  {
    FieldsOfJoinSpaces(fs, " ");
  }

  /** A text of whitespace only has no fields. */
  lemma {:induction false} FieldsOfSpaces(w: string)
    requires AllSpace(w)
    ensures Fields(w) == []
    decreases |w|
  {
    if |w| > 0 {
      FieldsOfSpaces(w[1..]);
    }
  }

  /** Trailing whitespace, such as the line end `readline` keeps, adds no
      field and changes none. */
  lemma {:induction false} FieldsIgnoreTrailingSpace(s: string, w: string)
    requires AllSpace(w)
    ensures Fields(s + w) == Fields(s)
    decreases |s|
  {
    if |s| == 0 {
      assert s + w == w;
      FieldsOfSpaces(w);
    } else if IsSpace(s[0]) {
      assert (s + w)[1..] == s[1..] + w;
      FieldsIgnoreTrailingSpace(s[1..], w);
    } else {
      var word := Word(s);
      var rest := s[|word|..];
      assert s == word + rest;
      assert (s + w) == word + (rest + w);
      WordOfPrefix(word, rest + w);
      assert (s + w)[|word|..] == rest + w;
      FieldsIgnoreTrailingSpace(rest, w);
    }
  }

  /** Every field of a line is a literal substring of the line. */
  lemma {:induction false} FieldsAreSubstrings(s: string)
    ensures forall i :: 0 <= i < |Fields(s)| ==> Contains(s, Fields(s)[i])
    decreases |s|
  {
    if |s| > 0 {
      var fs := Fields(s);
      if IsSpace(s[0]) {
        FieldsAreSubstrings(s[1..]);
        assert s[1..|s|] == s[1..];
        forall i | 0 <= i < |fs| ensures Contains(s, fs[i]) {
          ContainsInSlice(s, fs[i], 1, |s|);
        }
      } else {
        var w := Word(s);
        FieldsAreSubstrings(s[|w|..]);
        assert s[|w|..|s|] == s[|w|..];
        forall i | 0 <= i < |fs| ensures Contains(s, fs[i]) {
          if i == 0 {
            assert IsPrefix(w, s);
          } else {
            assert fs[i] == Fields(s[|w|..])[i - 1];
            ContainsInSlice(s, fs[i], |w|, |s|);
          }
        }
      }
    }
  }
}

=== FILE: text.dfy ===
/** Python string primitives the parser relies on: substring membership
    (`t in s`), the lowest-index search of `str.find`/`str.index`, and the
    clamping rules of a slice `s[start:stop]`. */
module Text {
  import opened Results

  /** `p` is a prefix of `s`. */
  predicate IsPrefix(p: string, s: string) {
    |p| <= |s| && s[..|p|] == p
  }

  /** `t` occurs in `s` starting at index `i`. */
  predicate OccursAt(s: string, t: string, i: int) {
    0 <= i && i + |t| <= |s| && s[i..i + |t|] == t
  }

  /** Python's `t in s`, computed by scanning `s` from the left. */
  predicate Contains(s: string, t: string)
    decreases |s|
  {
    IsPrefix(t, s) || (|s| > 0 && Contains(s[1..], t))
  }

  /** An occurrence in the tail of `s` is an occurrence in `s`, one place later. */
  lemma OccursAtTail(s: string, t: string, i: int)
    requires |s| > 0 && 0 <= i
    ensures OccursAt(s[1..], t, i) <==> OccursAt(s, t, i + 1)
  {
    if 0 <= i && i + |t| <= |s| - 1 {
      assert s[1..][i..i + |t|] == s[i + 1..i + 1 + |t|];
    }
  }

  /** The scan agrees with the positional definition of a substring. */
  lemma {:induction false} ContainsIff(s: string, t: string)
    ensures Contains(s, t) <==> exists i :: OccursAt(s, t, i)
    decreases |s|
  {
    if IsPrefix(t, s) {
      assert OccursAt(s, t, 0);
    } else if |s| == 0 {
      assert forall i :: !OccursAt(s, t, i);
    } else {
      ContainsIff(s[1..], t);
      if Contains(s[1..], t) {
        var i :| OccursAt(s[1..], t, i);
        OccursAtTail(s, t, i);
      } else {
        forall i ensures !OccursAt(s, t, i) {
          if i > 0 {
            OccursAtTail(s, t, i - 1);
          }
        }
      }
    }
  }

  /** Every occurrence of `t` inside a slice of `s` is an occurrence in `s`. */
  lemma ContainsInSlice(s: string, t: string, lo: int, hi: int)
    requires 0 <= lo <= hi <= |s|
    requires Contains(s[lo..hi], t)
    ensures Contains(s, t)
  {
    ContainsIff(s[lo..hi], t);
    var i :| OccursAt(s[lo..hi], t, i);
    var u := s[lo..hi];
    assert u[i..i + |t|] == t;
    assert forall k :: 0 <= k < |t| ==> t[k] == u[i + k];
    assert forall k :: 0 <= k < |t| ==> t[k] == s[lo + i + k];
    assert s[lo + i..lo + i + |t|] == t;
    assert OccursAt(s, t, lo + i);
    ContainsIff(s, t);
  }

  /** Python's `s.index(t)` / `s.find(t)`: the lowest index at which `t`
      occurs, or `None` when it does not occur. */
  function IndexOf(s: string, t: string): (r: Option<nat>)
    ensures r.Some? ==> OccursAt(s, t, r.value)
    ensures r.Some? ==> forall j :: 0 <= j < r.value ==> !OccursAt(s, t, j)
    ensures r.None? ==> forall j :: !OccursAt(s, t, j)
    decreases |s|
  {
    if IsPrefix(t, s) then Some(0)
    else if |s| == 0 then None
    else
      var rest := IndexOf(s[1..], t);
      assert forall j :: 0 <= j ==> (OccursAt(s[1..], t, j) <==> OccursAt(s, t, j + 1)) by {
        forall j | 0 <= j ensures OccursAt(s[1..], t, j) <==> OccursAt(s, t, j + 1) {
          OccursAtTail(s, t, j);
        }
      }
      assert !OccursAt(s, t, 0);
      match rest
      case None =>
        assert forall j :: !OccursAt(s, t, j) by {
          forall j ensures !OccursAt(s, t, j) {
            if j > 0 {
              assert !OccursAt(s[1..], t, j - 1);
            }
          }
        }
        None
      case Some(i) =>
        assert forall j :: 0 <= j < i + 1 ==> !OccursAt(s, t, j) by {
          forall j | 0 <= j < i + 1 ensures !OccursAt(s, t, j) {
            if j > 0 {
              assert !OccursAt(s[1..], t, j - 1);
            }
          }
        }
        Some(i + 1)
  }

  /** An occurrence with none before it is the one `IndexOf` finds. */
  lemma IndexOfFirst(s: string, t: string, i: nat)
    requires OccursAt(s, t, i)
    requires forall j :: 0 <= j < i ==> !OccursAt(s, t, j)
    ensures IndexOf(s, t) == Some(i)
  {
  }

  /** Within a prefix `u` of `s`, occurrences in `s` and in `u` agree. */
  lemma OccursInPrefix(s: string, u: string, t: string, j: int)
    requires IsPrefix(u, s)
    requires 0 <= j && j + |t| <= |u|
    ensures OccursAt(s, t, j) <==> OccursAt(u, t, j)
  {
    var a := s[j..j + |t|];
    var b := u[j..j + |t|];
    forall k | 0 <= k < |t| ensures a[k] == b[k] {
      assert s[..|u|][j + k] == s[j + k];
    }
    assert a == b;
  }

  /** Python's `s.find(t)`: the lowest index of `t`, or -1. */
  function Find(s: string, t: string): (r: int)
    ensures -1 <= r < |s| || (r == |s| && |t| == 0)
    ensures r == -1 <==> !Contains(s, t)
    ensures r >= 0 ==> OccursAt(s, t, r) && forall j :: 0 <= j < r ==> !OccursAt(s, t, j)
  {
    ContainsIff(s, t);
    match IndexOf(s, t)
    case None => -1
    case Some(i) => i
  }

  /** How Python normalises one slice bound of a sequence of length `n`:
      a negative bound counts from the end, and both ends are clamped. */
  function SliceBound(i: int, n: nat): (r: nat)
    ensures r <= n
    ensures 0 <= i <= n ==> r == i
    ensures -(n as int) <= i < 0 ==> r as int == n as int + i
  {
    if i < 0 then (if i + n < 0 then 0 else i + n)
    else if i > n then n
    else i
  }

  /** Python's `s[start:stop]`; never fails, empty when the bounds cross. */
  function Slice(s: string, start: int, stop: int): (r: string)
    ensures |r| <= |s|
    ensures 0 <= start <= stop <= |s| ==> r == s[start..stop]
    ensures 0 <= start < |s| && stop == -1 ==> r == s[start..|s| - 1]
    ensures 0 <= stop <= start ==> r == []
    ensures start >= |s| ==> r == []
  {
    var a := SliceBound(start, |s|);
    var b := SliceBound(stop, |s|);
    if a < b then s[a..b] else []
  }
}
